=== FILE: README.md ===
# Pixiv bookmark auto-saver: resume, walk and dedup engine

This project models the decision logic of `auto-save-illust.js`. That
program walks a pixiv user's bookmark list from its oldest page down to
page 1 and saves the original image of every sub-asset of every bookmarked
illust, with a metadata record next to each image. It keeps a checkpoint
(`log/last-saved-illust.json`) so a later run resumes where the last one stopped.

The browser and the file system are replaced by plain data:

- **The bookmark collection** is a `seq<seq<Item>>` of pages. Each item has its URL and what its thumbnail shows: the alt text, whether an svg badge is present, and the badge's count label.
- **The image directory** is a `seq<string>` of file names. Saving only appends to it.
- **The info directory** is a map from record name to record.
- **The checkpoint** is an optional `(page, url)` pair.
- **The browser** is an input. For each item URL it says whether the gallery opens. For each sub-asset it says which click attempts throw, the response URL and page URL after the reload, and the image source.

Modules, one per file, follow the program's structure:

- `Text`: digit runs, `${n}` rendering of integers, and `parseInt` without a radix as ECMAScript defines it (NaN is `None`).
- `BookmarkUrl`: `getCurrBookmarkNum`. This is Node's `url.parse(...).query`, then `querystring.parse(...).p`, then `parseInt`. The module also has the page URL the program builds.
- `Classify`: `getIllustType`, how the main loop reads its answer, and the exit test of the page-reading poll.
- `Popup`: the 20-attempt click retry of `popupIllust`.
- `FileNames`:
  - the illust id (first match of `/\d+/`);
  - the stem `${id}_p${p}`;
  - the image file name (first match of `/\d+_p\d+\.\D+/`);
  - the metadata record name (`split(/\.\D+/)[0]`).
- `Dedup`: `isExistImg` as written, next to the rule it evidently means.
- `Store`: the write-once part of `saveIllustAndInfo` and `updateLastSavedIllust`.
- `Paginator`: the collection and `adjustStartPage`.
- `Driver`:
  - the sub-asset, item and page loops;
  - the descending page walk;
  - the whole program, which resolves the start page and then walks.
- `Theorems`: completeness of a finished walk, re-running a finished walk changes nothing, where the next run resumes after a crash and what it finds already done, and the dedup finding shown on single items.

The walk is parameterised by the dedup rule (`Dedup.Rule`). `AsWritten` is the program's substring test. `ExactStem` is the corrected rule. Every theorem about the walk holds under both rules. Under the corrected rule, "counted as saved" also means that a file of that sub-asset exists (`Theorems.ExactStemWalkSavesFiles`).

Four behaviours of the code that the model keeps as written:

- **Checkpoint write.** The checkpoint is rewritten after every sub-asset that passes `saveIllustFromResponse` without a throw. This includes a sub-asset whose image file already existed: `saveIllustAndInfo` returns early, and line 829 still runs. A sub-asset whose reload does not match throws at lines 535-537, so line 829 does not run for it.
- **Unreadable count.** A badge count that `parseInt` cannot read (NaN), or a zero or negative count, is not a fatal error. The sub-asset loop `i <= illustsNum` simply runs zero times and nothing is saved.
- **Empty first page on resume.** On resume, an empty first page does not fail the run. That page is read by the page-reading poll, which never returns. Only the pages after it are checked for an illust container before they are read. An empty page reached by the walk also makes the poll spin forever. The model records both cases as `Hung`.
- **Click attempts.** The click retry makes at most 20 attempts.

## Model

| member | source | states |
|---|---|---|
| Text.ParseIntOfIntToString | auto-save-illust.js:316-318 | `parseInt` reads back `${n}` as `n` for every integer, including negatives, whatever non-digit text follows, unless that text starts with `x`/`X` |
| Text.NatToStringInjective | auto-save-illust.js:620 | two different sub-indices never render to the same digits, so the stems `${id}_p${p}` of one illust differ |
| BookmarkUrl.QueryOf | auto-save-illust.js:312 | there is no query (null) exactly when the URL has no `?` before its fragment; a query never contains `#` |
| BookmarkUrl.JoinSplit | auto-save-illust.js:314 | splitting the query on `&` loses nothing: joining the pieces again gives the query back |
| BookmarkUrl.PageNumber | auto-save-illust.js:310-322 | a URL without a query, a query without a `p` key, or an empty `p` is page 1 (the falsy branch of `if(pageNum)`) |
| BookmarkUrl.PageNumberRoundTrip | auto-save-illust.js:310-322 | for every integer `n`, the page number read from `${base}?p=${n}` is `n`, when the base URL has no query or fragment: the number the walk navigates to is the number it reads back at line 700 |
| Classify.IllustType | auto-save-illust.js:221-245 | an alt text ending in `うごイラ` gives 0 whatever the badge says; with no badge the answer is 1; an unreadable count (NaN) can only come from a badge |
| Classify.BadgeCountIsRead | auto-save-illust.js:235-240 | a badge labelled with the decimal count `n` classifies a non-ugoira item as `n` |
| Classify.SubAssetCount | auto-save-illust.js:776-792 | the loop `1 <= i <= illustsNum` runs `illustsNum` times when that is at least 1, and never for NaN, 0 or a negative count; the item is a gallery exactly when the loop runs more than once |
| Paginator.PollEndsOnItems | auto-save-illust.js:259-277 | with one anchor per item, once every anchor has its image the poll's exit test holds exactly when the page has items; on a page without items no image count ever satisfies it, so the read never returns |
| Popup.FirstClick | auto-save-illust.js:425-451 | the popup opens at the first attempt below 20 that does not throw; it fails exactly when all 20 attempts throw |
| Popup.PopupIllust | auto-save-illust.js:425-451 | the retry loop stops at the first attempt that goes through, and reports failure exactly when none of the 20 does |
| Popup.PopupAgrees | auto-save-illust.js:425-451 | any answer meeting the loop's contract equals the recursive definition |
| FileNames.IllustId | auto-save-illust.js:618 | the id is a non-empty run of digits occurring in the URL; there is none (the TypeError) exactly when the URL has no digit |
| FileNames.IllustIdOfUrl | auto-save-illust.js:618 | the id is read from any URL in which it is the first digits and is not followed by another digit |
| FileNames.FileNameOf | auto-save-illust.js:476-478 | the file name found is the whole match of the pattern at the leftmost position where it matches; when none is found (the TypeError), the pattern matches at no position |
| FileNames.MatchLenOfStemFile | auto-save-illust.js:476 | the pattern matches all of `${id}_p${p}.${ext}` for an extension without digits, wherever that name stands |
| FileNames.FileNameOfImageUrl | auto-save-illust.js:476-478 | an image URL that ends with such a name, with no earlier match, yields exactly that name |
| FileNames.FirstMatchIsLeftmost | auto-save-illust.js:478 | the match taken is the leftmost position where the pattern matches |
| FileNames.MetaName | auto-save-illust.js:499-501 | the metadata record name is a prefix of the file name |
| FileNames.MetaNameOfStemFile | auto-save-illust.js:499-505 | the record of `${id}_p${p}.${ext}` is named `${id}_p${p}` |
| Dedup.StemFileIsSaved | auto-save-illust.js:616-635 | a file named `${id}_p${p}.<ext>` makes the sub-asset count as saved, under both rules |
| Dedup.SavedStaysSaved | auto-save-illust.js:616-635 | adding files never turns "saved" into "not saved", under both rules |
| Dedup.ExactStemImpliesIsExistImg | auto-save-illust.js:627-631 | whatever the corrected rule finds, the substring test finds too |
| Dedup.StemFileNamesOneSubAsset | auto-save-illust.js:620 | under the corrected rule one file answers for exactly one (id, sub-index) pair |
| Dedup.SuffixIdCollision | auto-save-illust.js:627-631 | a saved `d${id}_p0.png` passes the substring test for illust `id`, though no file of `id` exists |
| Dedup.SubIndexCollision | auto-save-illust.js:627-631 | a saved `${id}_p10.png` passes the substring test for sub-index 1, though no file of sub-index 1 exists |
| Store.SaveImage | auto-save-illust.js:482-505 | an existing file means nothing is written; otherwise the image is appended and its record is stored under the metadata name; every other record and the checkpoint stay as they were; no file is listed twice |
| Store.SaveImageWriteOnce | auto-save-illust.js:482-496 | saving the same file a second time changes nothing, whichever item asks |
| Store.RecordCheckpoint | auto-save-illust.js:294-303 | the checkpoint becomes the given page and URL; the images and records are untouched |
| Paginator.FreshStart | auto-save-illust.js:201-204 | the fresh start page `n` is `Math.ceil(total / 48)`: the least `n` with `total <= 48 n` |
| Paginator.FreshStartIsLastPage | auto-save-illust.js:196-207 | for a collection paged 48 at a time, the count leads to its last page |
| Paginator.ScanFrom | auto-save-illust.js:168-192 | the scan moves one page at a time. It stops at the first page holding the URL, or at the first page with no items if that comes earlier. Every page passed has items and lacks the URL |
| Paginator.StartPage | auto-save-illust.js:150-213 | no checkpoint gives the fresh start page. An empty checkpoint page hangs. Otherwise the result is a page at or after the checkpoint's page that holds the URL, or a later empty page where the run fails |
| Paginator.ResumeFindsCheckpoint | auto-save-illust.js:168-179 | the resume lands on the first page, from the checkpoint's, that holds the URL, when the pages before it have items |
| Paginator.ResumeAtCheckpointPage | auto-save-illust.js:160-179 | a URL still on its checkpoint page is resumed on that page, with no further scan |
| Paginator.ResumeLosesCheckpoint | auto-save-illust.js:182-191 | an empty page reached before the URL makes the resume fail at that page |
| Driver.SubAsset | auto-save-illust.js:792-833 | a sub-asset counted as saved is skipped with no effect. Otherwise the pass goes through exactly when the popup opens, the response answers for the page and the image source holds a file name; then that file is listed, its record is stored when the file is new, and the checkpoint becomes (page, item URL) even when the file already existed. A throw leaves the disk as it was |
| Driver.MismatchSavesNothing | auto-save-illust.js:530-538 | a response URL that differs from the page URL throws before any image, record or checkpoint is written |
| Driver.SubAssets | auto-save-illust.js:792-833 | over the loop, files are only appended, no file is listed twice, and the checkpoint is unchanged or names this page and item |
| Driver.ProcessItem | auto-save-illust.js:718-839 | an ugoira causes no write at all; an item whose count gives no loop pass changes nothing |
| Driver.ProcessItems | auto-save-illust.js:718-839 | after the items of a page, files were only appended, and any new checkpoint names this page and an item on it |
| Driver.ProcessPage | auto-save-illust.js:707-839 | the same, for the whole page |
| Driver.WalkWith | auto-save-illust.js:694-856 | for any page step, the walk reads `n, n-1, ...`: every page from `n` down to the last one read has items. A walk that passes page 1 read exactly `n` pages. A hang is at the first page without items, where the poll's exit test (line 275) can never hold |
| Driver.Walk | auto-save-illust.js:694-856 | the program's walk has the shape of `WalkWith`, and files are only appended |
| Driver.WalkWithKeepsNoDup | auto-save-illust.js:482-491 | for any page step that keeps listings duplicate-free, so does the walk |
| Driver.WalkKeepsNoDup | auto-save-illust.js:482-491 | the program's walk never lists a file twice when the directory did not |
| Driver.WalkWithCheckpoint | auto-save-illust.js:829 | for any page step that points the checkpoint only at its own page, a checkpoint the walk writes names a page the walk read and an item URL on that page |
| Driver.WalkCheckpoint | auto-save-illust.js:829 | the same for the program's walk |
| Driver.Harvest | auto-save-illust.js:683-687 | the walk starts at the page start-page resolution picks (the checkpoint's scan, or `Math.ceil(total / 48)` on a fresh run). A finished run read pages `first .. 1`. A run that read no page and crashed failed to resume from an existing checkpoint and wrote nothing. Files are only appended |
| Theorems.SubAssetSaves | auto-save-illust.js:796-829 | a sub-asset the loop passes without a throw counts as saved afterwards, when the popup shows that sub-asset's image |
| Theorems.SubAssetsComplete | auto-save-illust.js:792-833 | after the loop passes without a throw, every sub-index from the start up to the count counts as saved |
| Theorems.SubAssetsCrashPrefix | auto-save-illust.js:792-833 | when the loop throws, it throws at the first sub-index, counting up, that the browser does not deliver; that sub-index does not count as saved, and every sub-index below it does |
| Theorems.SubAssetsNoop | auto-save-illust.js:796-800 | when every sub-index already counts as saved, the loop changes nothing |
| Theorems.ItemComplete | auto-save-illust.js:718-839 | an item passed without a throw has nothing left to do |
| Theorems.ItemNoop | auto-save-illust.js:732-800 | an item with nothing left to do is passed with no effect |
| Theorems.ItemsComplete | auto-save-illust.js:718-839 | a page passed without a throw has nothing left to do on any of its items |
| Theorems.ItemsNoop | auto-save-illust.js:718-839 | a page with nothing left to do is passed with no effect |
| Theorems.WalkWithComplete | auto-save-illust.js:694-856 | for any step that completes its page and any notion of done that survives new files, a walk passing page 1 leaves every page `1 .. n` done |
| Theorems.WalkWithNoop | auto-save-illust.js:694-856 | for any step that skips done pages, a walk over done pages passes page 1 and changes nothing |
| Theorems.WalkComplete | auto-save-illust.js:694-856 | a walk from `n` that passes page 1 leaves nothing to do on pages `1 .. n` |
| Theorems.WalkWithCrashPrefix | auto-save-illust.js:694-856 | for any step that completes its page and any notion of done that survives new files, a walk that crashes read at least one page, and every page it read before the crashing one is done |
| Theorems.WalkCrashPrefix | auto-save-illust.js:694-856 | a crashed walk from `n` leaves nothing to do on every page it read before the one it crashed on |
| Theorems.WalkNoop | auto-save-illust.js:694-856 | a walk over pages with nothing left to do passes page 1 and leaves the disk unchanged |
| Theorems.ExactStemWalkSavesFiles | auto-save-illust.js:792-833 | under the corrected rule, a finished walk leaves a file `${id}_p${p}.<ext>` for every sub-asset of every non-ugoira item with an id on pages `1 .. n` |
| Theorems.HarvestIdempotent | auto-save-illust.js:683-856 | a second run after a finished one, on the same collection and browser, also finishes and leaves files, records and checkpoint exactly as they were |
| Theorems.ResumeAfterCrash | auto-save-illust.js:150-192 | after a run that read at least one page and then crashed, the next run resumes on a page the crashed run read, no higher than its first page, and every page above the resume page up to the crashed run's first page has nothing left to do |
| Theorems.SingleImageItem | auto-save-illust.js:739-833 | a single-image item with an id is exactly one pass of the sub-asset loop, for sub-index 0 |
| Theorems.SuffixIdSkipsItem | auto-save-illust.js:796-800 | as written, a single-image item whose id ends a longer saved id is passed with no save, though no file of it exists |
| Theorems.ExactStemSavesItem | auto-save-illust.js:792-833 | under the corrected rule the same item is saved and the checkpoint moves to it |

## Left out

- **Browser plumbing**: launching browsers, navigation, cookies, focus, `Network.enable`, the reload and the response body. These are Puppeteer I/O. The browser is an input record instead.
- **The page-reading poll** (lines 259-277) has no bound. Only its exit test is modelled (`Classify.Stabilized`, tied to the pages by `Paginator.PollEndsOnItems`). A page without items is recorded as `Hung` instead of looping.
- **Missing elements.** A selector that never appears, or an element that `$eval` cannot find, makes Puppeteer throw or wait (for example lines 226, 239, 418 and 466). These throws and waits are not modelled: the thumbnail, the popup anchor and the image element are assumed present.
- **Metadata scraping** (`getIllustInfo`). This is best-effort DOM scraping. A record holds only the item URL and the file name.
- **Image bytes.** The image contents are not modelled.
- **The tab lookup** (lines 818-823). Reading the second tab is assumed to succeed. It depends on browser state the model does not have.
- **The total-count label** (line 197). Its parse is not modelled; the total is an integer input. A NaN total, which would navigate to `?p=NaN`, is not modelled.
- **The checkpoint file.** The JSON encoding of `log/last-saved-illust.json` and `getLastSavedInfo`'s file read are left out. The checkpoint is the optional field of the state.
- **Re-reading the URL.** The walk passes the page number directly instead of re-reading it from the URL at line 700. `BookmarkUrl.PageNumberRoundTrip` shows that the URL the program builds reads back as that same number.
- **Process plumbing**: logging, `currentInfo`, the exception handlers, `makeRequiredDir`, `stopProcess` and `save-new-cookie.js`. These are I/O or debugging helpers with no decision logic.
- **Empty collections.** A total of 0 leads to page 0, which the model reads as a page without items, so the run is `Hung`. No termination is claimed for it.
- **URL decoding.** `querystring` percent-decoding of the page parameter is left out. The URLs the program builds contain none.
- **Numbers.** `parseInt` is modelled on unbounded integers. Floating-point rounding of very long digit strings is left out.

## Findings

| source | as written | input that shows it | evidently intended | confidence | as-written member | corrected member |
|---|---|---|---|---|---|---|
| auto-save-illust.js:627-631 | a sub-asset counts as saved when any saved file name merely CONTAINS `${id}_p${p}` | saved `112345678_p0.png`; single-image item with id `12345678`: it is skipped and never saved | a file of that sub-asset exists: a name that starts with `${id}_p${p}.` | high (not executed) | Dedup.SuffixIdCollision, Theorems.SuffixIdSkipsItem | Dedup.StemFileNamesOneSubAsset, Theorems.ExactStemSavesItem |
| auto-save-illust.js:627-631 | the same substring test takes sub-index 10 for sub-index 1 | saved `12345678_p10.png`; sub-asset 1 of illust `12345678` is skipped and never saved | the same exact-stem test | high (not executed) | Dedup.SubIndexCollision | Dedup.StemFileNamesOneSubAsset, Theorems.ExactStemWalkSavesFiles |

=== FILE: bookmark_url.dfy ===
/**
 The bookmark-list URL and the page number read back from it
 (`getCurrBookmarkNum`): Node's legacy `url.parse` takes the query after the
 first `?` of the fragment-free URL, `querystring.parse` splits it on `&` and
 each piece on its first `=`, a key seen twice yields an array whose string
 form joins the values with `,`, and `parseInt` reads the number.
 */
module BookmarkUrl {
  import opened Text

  /** The URL without its fragment: `url.parse` cuts at the first `#` before looking for `?`. */
  function WithoutFragment(url: string): (r: string)
    ensures HasPrefix(url, r) && '#' !in r
    ensures '#' !in url ==> r == url
  {
    match IndexOf(url, '#')
    case None => url
    case Some(k) => url[..k]
  }

  /** `url.parse(url).query`: what follows the first `?`, or `None` (null) when there is no `?`. */
  function QueryOf(url: string): (r: Option<string>)
    ensures r.None? <==> '?' !in WithoutFragment(url)
    ensures r.Some? ==> '#' !in r.value
  {
    var rest := WithoutFragment(url);
    match IndexOf(rest, '?')
    case None => None
    case Some(k) => Some(rest[k + 1..])
  }

  /** `s.split(sep)` for a one-character separator. */
  function Split(s: string, sep: char): (r: seq<string>)
    ensures |r| > 0
    ensures forall i :: 0 <= i < |r| ==> sep !in r[i]
    decreases |s|
  {
    match IndexOf(s, sep)
    case None => [s]
    case Some(k) => [s[..k]] + Split(s[k + 1..], sep)
  }

  /** `parts.join(sep)`, which is also the string form of an array when `sep` is `,`. */
  function Join(parts: seq<string>, sep: char): string
    decreases |parts|
  {
    if |parts| == 0 then ""
    else if |parts| == 1 then parts[0]
    else parts[0] + [sep] + Join(parts[1..], sep)
  }

  /** Splitting and joining again on the same separator gives the text back. */
  lemma {:induction false} JoinSplit(s: string, sep: char)
    ensures Join(Split(s, sep), sep) == s
    decreases |s|
  {
    match IndexOf(s, sep)
    case None =>
    case Some(k) =>
      var tail := s[k + 1..];
      JoinSplit(tail, sep);
      assert Split(s, sep) == [s[..k]] + Split(tail, sep);
      assert s == s[..k] + [sep] + tail;
  }

  /** Key of a `key=value` piece: everything before the first `=`, or the whole piece. */
  function KeyOf(piece: string): string
  {
    match IndexOf(piece, '=')
    case None => piece
    case Some(k) => piece[..k]
  }

  /** Value of a `key=value` piece: everything after the first `=`, or empty. */
  function ValueOf(piece: string): string
  {
    match IndexOf(piece, '=')
    case None => ""
    case Some(k) => piece[k + 1..]
  }

  /** The values given to `key` by the query pieces, in order. */
  function ParamValues(pieces: seq<string>, key: string): (r: seq<string>)
    ensures |r| <= |pieces|
    ensures (forall i :: 0 <= i < |pieces| ==> KeyOf(pieces[i]) != key) ==> r == []
    decreases |pieces|
  {
    if |pieces| == 0 then []
    else (if KeyOf(pieces[0]) == key then [ValueOf(pieces[0])] else []) + ParamValues(pieces[1..], key)
  }

  /** Every value of the query parameter `p`. */
  function PageParam(url: string): seq<string>
  {
    match QueryOf(url)
    case None => []
    case Some(q) => ParamValues(Split(q, '&'), "p")
  }

  /**
   `getCurrBookmarkNum`: the page number the list URL asks for. A missing or
   empty `p` is falsy and gives 1; otherwise `parseInt` reads the value (the
   values joined by `,` when `p` is repeated), and `None` stands for NaN.
   */
  function PageNumber(url: string): (r: Option<int>)
    ensures QueryOf(url).None? ==> r == Some(1)
    ensures PageParam(url) == [] ==> r == Some(1)
    ensures PageParam(url) == [""] ==> r == Some(1)
  {
    var values := PageParam(url);
    if values == [] || values == [""] then Some(1)
    else ParseInt(Join(values, ','))
  }

  /** The URL the walk navigates to for page `n`: `${base}?p=${n}`. */
  function PageUrl(base: string, n: int): string
  {
    base + "?p=" + IntToString(n)
  }

  /**
   Reading the page number back from a list URL the program built gives the
   number it was built with, for every integer, as long as the base URL has
   no query and no fragment of its own.
   */
  lemma PageNumberRoundTrip(base: string, n: int)
    requires '?' !in base && '#' !in base
    ensures PageNumber(PageUrl(base, n)) == Some(n)
  {
    var digits := IntToString(n);
    assert '#' !in digits && '&' !in digits by {
      forall i | 0 <= i < |digits| ensures digits[i] != '#' && digits[i] != '&' {
        assert IsDigit(digits[i]) || digits[i] == '-';
      }
    }
    QueryOfPageUrl(base, digits);
    SinglePageParam(digits);
    assert Join([digits], ',') == digits + "";
    ParseIntOfIntToString(n, "");
  }

  /** The query of `${base}?p=${digits}` is `p=${digits}`. */
  lemma QueryOfPageUrl(base: string, digits: string)
    requires '?' !in base && '#' !in base && '#' !in digits
    ensures QueryOf(base + "?p=" + digits) == Some("p=" + digits)
  {
    var url := base + "?p=" + digits;
    var q := "p=" + digits;
    assert url == base + ['?'] + q;
    assert '#' !in url by {
      forall i | 0 <= i < |url| ensures url[i] != '#' {
        if i < |base| { assert url[i] == base[i]; }
        else if i >= |base| + 3 { assert url[i] == digits[i - |base| - 3]; }
      }
    }
    assert IndexOf(url, '?') == Some(|base|) by {
      assert url[|base|] == '?';
      assert forall i :: 0 <= i < |base| ==> url[i] == base[i];
    }
    assert url[|base| + 1..] == q;
  }

  /** The query `p=${digits}` gives `p` the one value `digits`. */
  lemma SinglePageParam(digits: string)
    requires '&' !in digits && digits != ""
    ensures ParamValues(Split("p=" + digits, '&'), "p") == [digits]
  {
    var q := "p=" + digits;
    assert '&' !in q by {
      forall i | 0 <= i < |q| ensures q[i] != '&' {
        if i >= 2 { assert q[i] == digits[i - 2]; }
      }
    }
    SplitWithoutSeparator(q, '&');
    PagePair(digits);
    SingleParam(q, "p");
  }

  lemma SplitWithoutSeparator(s: string, sep: char)
    requires sep !in s
    ensures Split(s, sep) == [s]
  {
  }

  lemma SingleParam(piece: string, key: string)
    requires KeyOf(piece) == key
    ensures ParamValues([piece], key) == [ValueOf(piece)]
  {
    assert [piece][1..] == [];
  }

  /** The piece `p=${digits}` has key `p` and value `digits`. */
  lemma PagePair(digits: string)
    ensures KeyOf("p=" + digits) == "p" && ValueOf("p=" + digits) == digits
  {
    var piece := "p=" + digits;
    IndexOfFirst(piece, '=', 1);
    assert piece[..1] == "p";
    assert piece[2..] == digits;
  }
}

=== FILE: classify.dfy ===
/**
 What a bookmark thumbnail says about its item (`getIllustType`) and how the
 walk reads that answer: an ugoira (animation) is skipped, a multi-image item
 ("manga") has its gallery opened first, and the sub-asset loop runs over
 `1 <= i <= count`. A count label that `parseInt` cannot read is NaN, modelled
 as `None`.
 */
module Classify {
  import opened Text

  /** What the thumbnail anchor shows: the image's alt text, whether an svg badge is present, and the badge's count label. */
  datatype ItemView = ItemView(alt: string, hasSvg: bool, countLabel: string)

  /** `/うごイラ$/`: the alt text of an ugoira thumbnail ends with this. */
  const UgoiraMarker: string := "うごイラ"

  /**
   `getIllustType`: 0 for an ugoira, whatever else the thumbnail shows; the
   parsed count label when there is an svg badge; 1 otherwise.
   */
  function IllustType(v: ItemView): (r: Option<int>)
    ensures HasSuffix(v.alt, UgoiraMarker) ==> r == Some(0)
    ensures !HasSuffix(v.alt, UgoiraMarker) && !v.hasSvg ==> r == Some(1)
    ensures r.None? ==> v.hasSvg && !HasSuffix(v.alt, UgoiraMarker)
  {
    if HasSuffix(v.alt, UgoiraMarker) then Some(0)
    else if v.hasSvg then ParseInt(v.countLabel)
    else Some(1)
  }

  /** A badge whose label is the decimal count `n` (`${n}`, possibly followed by non-digits) classifies the item as `n`. */
  lemma BadgeCountIsRead(alt: string, n: int, rest: string)
    requires !HasSuffix(alt, UgoiraMarker)
    requires rest == [] || (!IsDigit(rest[0]) && rest[0] != 'x' && rest[0] != 'X')
    ensures IllustType(ItemView(alt, true, IntToString(n) + rest)) == Some(n)
  {
    ParseIntOfIntToString(n, rest);
  }

  /** `illustsNum === 0`: the walk skips the item without opening it. */
  predicate IsUgoira(t: Option<int>) { t == Some(0) }

  /** `illustsNum > 1`: NaN compares false, so an unreadable count is not a gallery. */
  predicate IsManga(t: Option<int>) { t.Some? && t.value > 1 }

  /**
   Number of iterations of `for (let i = 1; i <= illustsNum; i++)`: the count
   when it is at least 1, and none for NaN, zero or a negative count.
   */
  function SubAssetCount(t: Option<int>): (n: nat)
    ensures n > 0 <==> t.Some? && t.value >= 1
    ensures n > 0 ==> n == t.value
    ensures IsManga(t) <==> n > 1
  {
    match t
    case Some(k) => if k >= 1 then k else 0
    case None => 0
  }

  /**
   The exit test of the busy-poll that reads a bookmark page: at least one
   illust anchor, and as many anchor images as anchors.
   */
  predicate Stabilized(anchors: nat, images: nat)
  {
    anchors > 0 && anchors == images
  }
}

=== FILE: dedup.dfy ===
/**
 Whether a sub-asset counts as already saved, given the names of the files
 in the image directory. `IsExistImg` is the rule the program applies
 (`isExistImg`: some file name CONTAINS `${id}_p${p}`); `HasStemFile` is the
 rule it evidently intends (some file is named `${id}_p${p}.<extension>`).
 The walk is modelled under either rule.
 */
module Dedup {
  import opened Text
  import opened FileNames

  datatype Rule = AsWritten | ExactStem

  /** `isExistImg`: some saved image name contains `${id}_p${p}` anywhere. */
  predicate IsExistImg(images: seq<string>, id: string, p: nat)
  {
    exists k :: 0 <= k < |images| && Contains(images[k], StemOf(id, p))
  }

  /** The corrected rule: some saved image name starts with `${id}_p${p}.`. */
  predicate HasStemFile(images: seq<string>, id: string, p: nat)
  {
    exists k :: 0 <= k < |images| && HasPrefix(images[k], StemOf(id, p) + ".")
  }

  predicate Saved(rule: Rule, images: seq<string>, id: string, p: nat)
  {
    match rule
    case AsWritten => IsExistImg(images, id, p)
    case ExactStem => HasStemFile(images, id, p)
  }

  /** Every file of `images` is still among `images'`. */
  predicate Kept(images: seq<string>, images': seq<string>)
  {
    forall x :: x in images ==> x in images'
  }

  /** A listing that only grows at the end keeps every file. */
  lemma PrefixKept(images: seq<string>, images': seq<string>)
    requires images <= images'
    ensures Kept(images, images')
  {
    forall x | x in images ensures x in images' {
      var k :| 0 <= k < |images| && images[k] == x;
      assert images'[k] == x;
    }
  }

  /** A file named `${id}_p${p}.<extension>` makes sub-asset `p` of illust `id` count as saved, under either rule. */
  lemma StemFileIsSaved(rule: Rule, images: seq<string>, id: string, p: nat, k: nat)
    requires k < |images| && HasPrefix(images[k], StemOf(id, p) + ".")
    ensures Saved(rule, images, id, p)
  {
    var stem := StemOf(id, p);
    assert images[k][..|stem|] == stem;
    assert OccursAt(images[k], stem, 0);
  }

  /** Adding files never turns "saved" into "not saved", under either rule. */
  lemma SavedStaysSaved(rule: Rule, images: seq<string>, images': seq<string>, id: string, p: nat)
    requires Saved(rule, images, id, p) && Kept(images, images')
    ensures Saved(rule, images', id, p)
  {
    match rule
    case AsWritten =>
      var k :| 0 <= k < |images| && Contains(images[k], StemOf(id, p));
      assert images[k] in images;
      var k' :| 0 <= k' < |images'| && images'[k'] == images[k];
    case ExactStem =>
      var k :| 0 <= k < |images| && HasPrefix(images[k], StemOf(id, p) + ".");
      assert images[k] in images;
      var k' :| 0 <= k' < |images'| && images'[k'] == images[k];
  }

  /** The corrected rule is stricter: whatever it finds, the program's rule finds too. */
  lemma ExactStemImpliesIsExistImg(images: seq<string>, id: string, p: nat)
    requires HasStemFile(images, id, p)
    ensures IsExistImg(images, id, p)
  {
    var k :| 0 <= k < |images| && HasPrefix(images[k], StemOf(id, p) + ".");
    StemFileIsSaved(AsWritten, images, id, p, k);
  }

  /**
   Under the corrected rule a file answers for exactly one sub-asset: if its
   name starts with both `${id}_p${p}.` and `${id'}_p${p'}.`, for ids made of
   digits, then the ids and the sub-indices are the same.
   */
  lemma StemFileNamesOneSubAsset(f: string, id: string, p: nat, id': string, p': nat)
    requires AllDigits(id) && AllDigits(id')
    requires HasPrefix(f, StemOf(id, p) + ".") && HasPrefix(f, StemOf(id', p') + ".")
    ensures id == id' && p == p'
  {
    StemPrefixRuns(f, id, NatToString(p));
    StemPrefixRuns(f, id', NatToString(p'));
    assert id == f[0..|id|] == id';
    NatToStringInjective(p, p');
  }

  /** The runs of a name that starts with `${id}_p${digits}.` give `id` and `digits` back. */
  lemma StemPrefixRuns(f: string, id: string, digits: string)
    requires AllDigits(id) && AllDigits(digits) && HasPrefix(f, id + "_p" + digits + ".")
    ensures DigitsFrom(f, 0) == |id| && f[0..|id|] == id
    ensures |id| + 2 + |digits| <= |f| && DigitsFrom(f, |id| + 2) == |digits| && f[|id| + 2..|id| + 2 + |digits|] == digits
  {
    StemHead(id, digits);
    HeadRuns(f, id + "_p" + digits + ".", id, digits);
  }

  lemma HeadRuns(f: string, head: string, id: string, digits: string)
    requires AllDigits(id) && AllDigits(digits)
    requires |head| == |id| + 3 + |digits| && |head| <= |f| && f[..|head|] == head
    requires head[0..|id|] == id && head[|id|] == '_'
    requires head[|id| + 2..|id| + 2 + |digits|] == digits && head[|id| + 2 + |digits|] == '.'
    ensures DigitsFrom(f, 0) == |id| && f[0..|id|] == id
    ensures DigitsFrom(f, |id| + 2) == |digits| && f[|id| + 2..|id| + 2 + |digits|] == digits
  {
    var a := |id|;
    var b := |digits|;
    PrefixPieces(f, head, a, b);
    DigitsThen(f, 0, id);
    DigitsThen(f, a + 2, digits);
  }

  /** Where the pieces of `${id}_p${digits}.` stand. */
  lemma StemHead(id: string, digits: string)
    ensures var head := id + "_p" + digits + "."; var a := |id|; var b := |digits|;
      && |head| == a + 3 + b
      && head[0..a] == id && head[a] == '_' && head[a + 1] == 'p'
      && head[a + 2..a + 2 + b] == digits && head[a + 2 + b] == '.'
  {
    var head := id + "_p" + digits + ".";
    var a := |id|;
    assert head == id + ("_p" + digits + ".");
    assert head[a..] == "_p" + digits + ".";
    assert head[a + 2..] == digits + ".";
  }

  lemma PrefixPieces(f: string, head: string, a: nat, b: nat)
    requires |head| == a + 3 + b && |head| <= |f| && f[..|head|] == head
    ensures f[0..a] == head[0..a] && f[a] == head[a]
    ensures f[a + 2..a + 2 + b] == head[a + 2..a + 2 + b] && f[a + 2 + b] == head[a + 2 + b]
  {
    assert forall i :: 0 <= i < |head| ==> f[i] == head[i];
  }

  /**
   The program's rule, as written, takes an id that ends another id for the
   same illust: a saved `d${id}_p0.png` (any digit `d` in front) makes
   sub-asset 0 of illust `id` count as saved, though no file of that
   sub-asset exists.
   */
  lemma SuffixIdCollision(id: string, d: char)
    requires |id| > 0 && AllDigits(id) && IsDigit(d)
    ensures IsExistImg([[d] + StemOf(id, 0) + ".png"], id, 0)
    ensures !HasStemFile([[d] + StemOf(id, 0) + ".png"], id, 0)
  {
    var stem := StemOf(id, 0);
    var f := [d] + stem + ".png";
    assert f[1..1 + |stem|] == stem;
    assert OccursAt(f, stem, 1);
    assert Contains([f][0], stem);
    assert !HasPrefix(f, stem + ".") by {
      var j := |id|;
      assert f[j] == id[j - 1];
      assert (stem + ".")[j] == '_';
    }
  }

  /**
   The same rule takes sub-index 10 for sub-index 1 (and 11..19 for 1, 20..29
   for 2, ...): a saved `${id}_p10.png` makes sub-asset 1 count as saved.
   */
  lemma SubIndexCollision(id: string)
    requires AllDigits(id)
    ensures IsExistImg([StemOf(id, 10) + ".png"], id, 1)
    ensures !HasStemFile([StemOf(id, 10) + ".png"], id, 1)
  {
    assert NatToString(1) == "1";
    assert NatToString(10) == NatToString(1) + [DigitChar(0)] == "10";
    var f := StemOf(id, 10) + ".png";
    var stem := StemOf(id, 1);
    assert f == stem + "0.png";
    assert OccursAt(f, stem, 0);
    assert Contains([f][0], stem);
    assert !HasPrefix(f, stem + ".") by {
      assert f[|stem|] == '0';
      assert (stem + ".")[|stem|] == '.';
    }
  }
}

=== FILE: driver.dfy ===
/**
 The main loop of the program: pages are read from the start page down to
 page 1, every item of a page in order, every sub-asset of an item in order.
 The browser is an input: for each item URL whether its gallery opens, and
 for each sub-asset what the popup tab shows (the click outcomes, the
 response and page URLs after the reload, and the image source). A throw
 ends the run with the state reached so far.
 */
module Driver {
  import opened Text
  import opened FileNames
  import opened Dedup
  import opened Classify
  import opened Popup
  import opened Store
  import opened Paginator

  /** What the popup tab of one sub-asset shows. */
  datatype Shot = Shot(click: nat -> bool, responseUrl: string, pageUrl: string, imgSrc: string)

  /** The browser, seen through what the program reads from it. */
  datatype Browser = Browser(galleryOpens: string -> bool, shot: (string, nat) -> Shot)

  /** The throws that end a run. */
  datatype Fault =
    | MissingIllustId     // the item URL has no digits: `match(/\d+/)` is null
    | GalleryClickFailed  // "Manga illust click error"
    | PopupFailed         // "error popup illust"
    | ResponseMismatch    // "response error in process of illust saving from response"
    | MissingFileName     // the image source does not match the file-name pattern
    | AdjustFailed        // "Failed to adjust"

  datatype Outcome = Done(st: State) | Failed(st: State, fault: Fault)

  /** How a run ends: the walk passed page 1, a throw, or a poll on a page without items that never returns. */
  datatype End = Finished | Crashed(fault: Fault) | Hung(page: int)

  /**
   A run started on the items of `pages` pages, `first, first - 1, ...,
   first - pages + 1`, left `final` on disk and ended as `end`.
   */
  datatype Run = Run(first: int, pages: nat, final: State, end: End)

  /** What an outcome leaves on disk, relative to the state before it, for the items of page `n`. */
  predicate Effect(n: int, items: seq<Item>, st: State, st': State)
  {
    && st.images <= st'.images
    && (NoDup(st.images) ==> NoDup(st'.images))
    && (st'.checkpoint == st.checkpoint
        || (st'.checkpoint.Some? && st'.checkpoint.value.page == n && OnPage(items, st'.checkpoint.value.url)))
  }

  /** The popup of sub-asset `p` opens, its reload answers for the page, and the image source holds a file name. */
  predicate Delivers(b: Browser, url: string, p: nat)
  {
    var shot := b.shot(url, p);
    FirstClick(shot.click).Some? && shot.responseUrl == shot.pageUrl && FileNameOf(shot.imgSrc).Some?
  }

  /**
   One pass of the sub-asset loop, for sub-index `p` of the item at `url`
   whose id is `id`, on page `n`: skipped when `isExistImg` (or the corrected
   rule) finds it; otherwise the popup, the response check and the file-name
   match must all succeed, the image is saved write-once, and the checkpoint
   is rewritten even when the file was already there.
   */
  function SubAsset(rule: Rule, b: Browser, n: int, url: string, id: string, p: nat, st: State): (o: Outcome)
    ensures st.images <= o.st.images && (NoDup(st.images) ==> NoDup(o.st.images))
    ensures o.st.checkpoint == st.checkpoint || o.st.checkpoint == Some(Checkpoint(n, url))
    ensures Saved(rule, st.images, id, p) ==> o == Done(st)
    ensures o.Failed? ==> o.st == st
    ensures !Saved(rule, st.images, id, p) ==> (o.Done? <==> Delivers(b, url, p))
    ensures !Saved(rule, st.images, id, p) && o.Done? ==>
      var name := FileNameOf(b.shot(url, p).imgSrc);
      && name.Some? && name.value in o.st.images
      && o.st.checkpoint == Some(Checkpoint(n, url))
      && (name.value !in st.images ==> MetaName(name.value) in o.st.infos && o.st.infos[MetaName(name.value)] == InfoRecord(url, name.value))
  {
    if Saved(rule, st.images, id, p) then Done(st)
    else
      var shot := b.shot(url, p);
      if FirstClick(shot.click).None? then Failed(st, PopupFailed)
      else if shot.responseUrl != shot.pageUrl then Failed(st, ResponseMismatch)
      else match FileNameOf(shot.imgSrc)
        case None => Failed(st, MissingFileName)
        case Some(name) => Done(RecordCheckpoint(SaveImage(st, url, name), n, url))
  }

  /**
   When the reloaded response answers for another URL than the page, the run
   throws before anything is written: no image, no record, no checkpoint.
   */
  lemma MismatchSavesNothing(rule: Rule, b: Browser, n: int, url: string, id: string, p: nat, st: State)
    requires !Saved(rule, st.images, id, p) && FirstClick(b.shot(url, p).click).Some?
    requires b.shot(url, p).responseUrl != b.shot(url, p).pageUrl
    ensures SubAsset(rule, b, n, url, id, p, st) == Failed(st, ResponseMismatch)
  {
  }

  /** The sub-asset loop from sub-index `p` up to `count - 1`, stopping at the first throw. */
  function SubAssets(rule: Rule, b: Browser, n: int, url: string, id: string, p: nat, count: nat, st: State): (o: Outcome)
    ensures st.images <= o.st.images && (NoDup(st.images) ==> NoDup(o.st.images))
    ensures o.st.checkpoint == st.checkpoint || o.st.checkpoint == Some(Checkpoint(n, url))
    decreases count - p
  {
    if p >= count then Done(st)
    else match SubAsset(rule, b, n, url, id, p, st)
      case Failed(st', f) => Failed(st', f)
      case Done(st') => SubAssets(rule, b, n, url, id, p + 1, count, st')
  }

  /**
   One item of a page: an ugoira is skipped; a gallery must open before its
   sub-assets are read; an unreadable, zero or negative count reads nothing;
   otherwise sub-indices `0 .. count - 1` are processed.
   */
  function ProcessItem(rule: Rule, b: Browser, n: int, item: Item, st: State): (o: Outcome)
    ensures st.images <= o.st.images && (NoDup(st.images) ==> NoDup(o.st.images))
    ensures o.st.checkpoint == st.checkpoint || o.st.checkpoint == Some(Checkpoint(n, item.url))
    ensures IsUgoira(IllustType(item.view)) ==> o == Done(st)
    ensures SubAssetCount(IllustType(item.view)) == 0 && o.Done? ==> o.st == st
  {
    var t := IllustType(item.view);
    if IsUgoira(t) then Done(st)
    else if IsManga(t) && !b.galleryOpens(item.url) then Failed(st, GalleryClickFailed)
    else
      var count := SubAssetCount(t);
      if count == 0 then Done(st)
      else match IllustId(item.url)
        case None => Failed(st, MissingIllustId)
        case Some(id) => SubAssets(rule, b, n, item.url, id, 0, count, st)
  }

  /** The items of page `n` from index `k` on, stopping at the first throw. */
  function ProcessItems(rule: Rule, b: Browser, n: int, items: seq<Item>, k: nat, st: State): (o: Outcome)
    requires k <= |items|
    ensures Effect(n, items, st, o.st)
    decreases |items| - k
  {
    if k == |items| then Done(st)
    else match ProcessItem(rule, b, n, items[k], st)
      case Failed(st', f) => Failed(st', f)
      case Done(st') => ProcessItems(rule, b, n, items, k + 1, st')
  }

  /** All the items of page `n`, in order. */
  function ProcessPage(rule: Rule, b: Browser, c: Collection, n: int, st: State): (o: Outcome)
    ensures Effect(n, PageAt(c, n), st, o.st)
  {
    ProcessItems(rule, b, n, PageAt(c, n), 0, st)
  }

  /** The page step of the program: `(n, st)` to the outcome of processing page `n` from disk state `st`. */
  function PageStep(rule: Rule, b: Browser, c: Collection): (int, State) -> Outcome
  {
    (n, st) => ProcessPage(rule, b, c, n, st)
  }

  /**
   The page walk from page `n`, for any page step: reading a page without
   items polls forever; after a page is done the next one is `n - 1`, and the
   walk ends once that is 0.
   */
  function WalkWith(step: (int, State) -> Outcome, c: Collection, n: int, st: State): (run: Run)
    ensures run.first == n
    ensures run.end.Finished? ==> run.pages == n
    ensures run.end.Hung? ==> run.end.page == n - run.pages && !HasItems(c, run.end.page)
    ensures forall q :: n - run.pages < q <= n ==> HasItems(c, q)
    ensures run.end.Hung? ==> forall images: nat :: !Stabilized(|PageAt(c, run.end.page)|, images)
    ensures run.pages == 0 ==> run.end.Hung? && run.final == st
    decreases if n > 0 then n else 0
  {
    PollEndsOnItems(c, n);
    if !HasItems(c, n) then Run(n, 0, st, Hung(n))
    else match step(n, st)
      case Failed(st', f) => Run(n, 1, st', Crashed(f))
      case Done(st') =>
        if n - 1 == 0 then Run(n, 1, st', Finished)
        else
          var rest := WalkWith(step, c, n - 1, st');
          Run(n, rest.pages + 1, rest.final, rest.end)
  }

  /** The main loop of the program, from page `n`. */
  function Walk(rule: Rule, b: Browser, c: Collection, n: int, st: State): (run: Run)
    ensures run.first == n
    ensures run.end.Finished? ==> run.pages == n
    ensures run.end.Hung? ==> run.end.page == n - run.pages && !HasItems(c, run.end.page)
    ensures forall q :: n - run.pages < q <= n ==> HasItems(c, q)
    ensures run.end.Hung? ==> forall images: nat :: !Stabilized(|PageAt(c, run.end.page)|, images)
    ensures run.pages == 0 ==> run.end.Hung? && run.final == st
    ensures st.images <= run.final.images
  {
    StepGrows(rule, b, c);
    WalkWithGrows(PageStep(rule, b, c), c, n, st);
    WalkWith(PageStep(rule, b, c), c, n, st)
  }

  /** A page step only ever adds files at the end of the listing. */
  ghost predicate Grows(step: (int, State) -> Outcome)
  {
    forall n: int, st: State :: st.images <= step(n, st).st.images
  }

  /** A page step never lists a file twice when the listing did not. */
  ghost predicate KeepsNoDup(step: (int, State) -> Outcome)
  {
    forall n: int, st: State :: NoDup(st.images) ==> NoDup(step(n, st).st.images)
  }

  /** A page step leaves the checkpoint alone or points it at an item of the page it processed. */
  ghost predicate ChecksOnPage(step: (int, State) -> Outcome, c: Collection)
  {
    forall n: int, st: State :: var ck := step(n, st).st.checkpoint;
      ck == st.checkpoint || (ck.Some? && ck.value.page == n && OnPage(PageAt(c, n), ck.value.url))
  }

  lemma StepGrows(rule: Rule, b: Browser, c: Collection)
    ensures Grows(PageStep(rule, b, c))
  {
    forall n: int, st: State ensures st.images <= PageStep(rule, b, c)(n, st).st.images {
      assert PageStep(rule, b, c)(n, st) == ProcessPage(rule, b, c, n, st);
    }
  }

  lemma StepKeepsNoDup(rule: Rule, b: Browser, c: Collection)
    ensures KeepsNoDup(PageStep(rule, b, c))
  {
    forall n: int, st: State | NoDup(st.images) ensures NoDup(PageStep(rule, b, c)(n, st).st.images) {
      assert PageStep(rule, b, c)(n, st) == ProcessPage(rule, b, c, n, st);
    }
  }

  lemma StepChecksOnPage(rule: Rule, b: Browser, c: Collection)
    ensures ChecksOnPage(PageStep(rule, b, c), c)
  {
    forall n: int, st: State ensures
      var ck := PageStep(rule, b, c)(n, st).st.checkpoint;
      ck == st.checkpoint || (ck.Some? && ck.value.page == n && OnPage(PageAt(c, n), ck.value.url))
    {
      assert PageStep(rule, b, c)(n, st) == ProcessPage(rule, b, c, n, st);
    }
  }

  lemma {:induction false} WalkWithGrows(step: (int, State) -> Outcome, c: Collection, n: int, st: State)
    requires Grows(step)
    ensures st.images <= WalkWith(step, c, n, st).final.images
    decreases if n > 0 then n else 0
  {
    if HasItems(c, n) && step(n, st).Done? && n - 1 != 0 {
      var st' := step(n, st).st;
      WalkWithGrows(step, c, n - 1, st');
    }
  }

  /** The walk never lists a file twice when the directory did not. */
  lemma {:induction false} WalkWithKeepsNoDup(step: (int, State) -> Outcome, c: Collection, n: int, st: State)
    requires KeepsNoDup(step) && NoDup(st.images)
    ensures NoDup(WalkWith(step, c, n, st).final.images)
    decreases if n > 0 then n else 0
  {
    if HasItems(c, n) && step(n, st).Done? && n - 1 != 0 {
      WalkWithKeepsNoDup(step, c, n - 1, step(n, st).st);
    }
  }

  /** A checkpoint the walk writes names a page it started on and an item URL on that page. */
  lemma {:induction false} WalkWithCheckpoint(step: (int, State) -> Outcome, c: Collection, n: int, st: State)
    requires ChecksOnPage(step, c)
    ensures var run := WalkWith(step, c, n, st);
      || run.final.checkpoint == st.checkpoint
      || (run.final.checkpoint.Some?
          && n - run.pages < run.final.checkpoint.value.page <= n
          && OnPage(PageAt(c, run.final.checkpoint.value.page), run.final.checkpoint.value.url))
    decreases if n > 0 then n else 0
  {
    if HasItems(c, n) && step(n, st).Done? && n - 1 != 0 {
      WalkWithCheckpoint(step, c, n - 1, step(n, st).st);
    }
  }

  /** The program's walk never lists a file twice when the directory did not. */
  lemma WalkKeepsNoDup(rule: Rule, b: Browser, c: Collection, n: int, st: State)
    requires NoDup(st.images)
    ensures NoDup(Walk(rule, b, c, n, st).final.images)
  {
    StepKeepsNoDup(rule, b, c);
    WalkWithKeepsNoDup(PageStep(rule, b, c), c, n, st);
  }

  /** A checkpoint the program's walk writes names a page it started on and an item URL on that page. */
  lemma WalkCheckpoint(rule: Rule, b: Browser, c: Collection, n: int, st: State)
    ensures var run := Walk(rule, b, c, n, st);
      || run.final.checkpoint == st.checkpoint
      || (run.final.checkpoint.Some?
          && n - run.pages < run.final.checkpoint.value.page <= n
          && OnPage(PageAt(c, run.final.checkpoint.value.page), run.final.checkpoint.value.url))
  {
    StepChecksOnPage(rule, b, c);
    WalkWithCheckpoint(PageStep(rule, b, c), c, n, st);
  }

  /** The whole program: resolve the start page, then walk down to page 1. */
  function Harvest(rule: Rule, b: Browser, c: Collection, total: int, st: State): (run: Run)
    ensures run.first == StartPage(st.checkpoint, total, c).page
    ensures run.end.Finished? ==> run.pages == run.first && run.pages > 0
    ensures st.images <= run.final.images
    ensures run.pages == 0 && run.end.Crashed? ==> run.end == Crashed(AdjustFailed) && st.checkpoint.Some? && run.final == st
  {
    match StartPage(st.checkpoint, total, c)
    case Stuck(p) => Run(p, 0, st, Hung(p))
    case Lost(p) => Run(p, 0, st, Crashed(AdjustFailed))
    case Resume(n) => Walk(rule, b, c, n, st)
  }
}

=== FILE: file_names.dfy ===
/**
 Names derived from URLs: the illust id of an item URL (first match of
 `/\d+/`), the sub-asset stem `${id}_p${p}`, the image file name taken from
 the original image URL (first match of `/\d+_p\d+\.\D+/`) and the name of the
 metadata record (the part of the file name before the first match of
 `/\.\D+/`).

 The regular expressions are matched the way a backtracking engine does,
 scanning positions of the text: the leftmost start position wins, and because every `\d+` in the pattern is
 followed by a character that is not a digit (`_` or `.`) and the final
 `\D+` is unconstrained, the greedy match at a given start is the maximal one
 and backtracking never finds another.
 */
module FileNames {
  import opened Text

  /** Position of the first decimal digit of `s`. */
  function FirstDigit(s: string): (r: Option<nat>)
    ensures r.Some? ==> r.value < |s| && IsDigit(s[r.value])
    ensures r.Some? ==> forall i :: 0 <= i < r.value ==> !IsDigit(s[i])
    ensures r.None? <==> NoDigits(s)
  {
    if |s| == 0 then None
    else if IsDigit(s[0]) then Some(0)
    else match FirstDigit(s[1..])
      case None => None
      case Some(k) => Some(k + 1)
  }

  /** Length of the maximal run of digits of `s` that starts at position `j` (greedy `\d+`; 0 when there is none). */
  function DigitsFrom(s: string, j: nat): (k: nat)
    requires j <= |s|
    ensures j + k <= |s|
    decreases |s| - j
  {
    if j < |s| && IsDigit(s[j]) then 1 + DigitsFrom(s, j + 1) else 0
  }

  /** Length of the maximal run of non-digits of `s` that starts at position `j` (greedy `\D+`). */
  function NonDigitsFrom(s: string, j: nat): (k: nat)
    requires j <= |s|
    ensures j + k <= |s|
    decreases |s| - j
  {
    if j < |s| && !IsDigit(s[j]) then 1 + NonDigitsFrom(s, j + 1) else 0
  }

  /** The run `DigitsFrom` measures is all digits and cannot be extended. */
  lemma {:induction false} DigitsFromIsRun(s: string, j: nat)
    requires j <= |s|
    ensures forall i :: j <= i < j + DigitsFrom(s, j) ==> IsDigit(s[i])
    ensures j + DigitsFrom(s, j) == |s| || !IsDigit(s[j + DigitsFrom(s, j)])
    decreases |s| - j
  {
    if j < |s| && IsDigit(s[j]) {
      DigitsFromIsRun(s, j + 1);
    }
  }

  /** A run of `n` digits that cannot be extended is what `DigitsFrom` measures. */
  lemma {:induction false} DigitsFromOfRun(s: string, j: nat, n: nat)
    requires j + n <= |s|
    requires forall i :: j <= i < j + n ==> IsDigit(s[i])
    requires j + n == |s| || !IsDigit(s[j + n])
    ensures DigitsFrom(s, j) == n
    decreases n
  {
    if n > 0 {
      assert IsDigit(s[j]);
      DigitsFromOfRun(s, j + 1, n - 1);
    }
  }

  /** Digits `x` standing at position `j`, followed by a non-digit, are the run that starts there. */
  lemma DigitsThen(s: string, j: nat, x: string)
    requires j + |x| < |s| && s[j..j + |x|] == x && AllDigits(x) && !IsDigit(s[j + |x|])
    ensures DigitsFrom(s, j) == |x|
  {
    forall i | j <= i < j + |x| ensures IsDigit(s[i]) {
      assert s[i] == x[i - j];
    }
    DigitsFromOfRun(s, j, |x|);
  }

  /** Same for a run of non-digits. */
  lemma {:induction false} NonDigitsFromOfRun(s: string, j: nat, n: nat)
    requires j + n <= |s|
    requires forall i :: j <= i < j + n ==> !IsDigit(s[i])
    requires j + n == |s| || IsDigit(s[j + n])
    ensures NonDigitsFrom(s, j) == n
    decreases n
  {
    if n > 0 {
      assert !IsDigit(s[j]);
      NonDigitsFromOfRun(s, j + 1, n - 1);
    }
  }

  /**
   The illust id of an item URL: `targetUrl.match(/\d+/)[0]`, the maximal run
   of digits that starts at the first digit. `None` stands for the TypeError
   the source raises when the URL holds no digit.
   */
  function IllustId(url: string): (r: Option<string>)
    ensures r.None? <==> NoDigits(url)
    ensures r.Some? ==> |r.value| > 0 && AllDigits(r.value) && Contains(url, r.value)
  {
    match FirstDigit(url)
    case None => None
    case Some(k) =>
      DigitsFromIsRun(url, k);
      var id := url[k..k + DigitsFrom(url, k)];
      assert OccursAt(url, id, k);
      Some(id)
  }

  /** An id is read from any URL in which it is the first digits and is not followed by another digit. */
  lemma IllustIdOfUrl(prefix: string, id: string, rest: string)
    requires NoDigits(prefix) && |id| > 0 && AllDigits(id)
    requires rest == [] || !IsDigit(rest[0])
    ensures IllustId(prefix + id + rest) == Some(id)
  {
    var url := prefix + id + rest;
    var k := |prefix|;
    assert IsDigit(url[k]) by { assert url[k] == id[0]; }
    assert forall i :: 0 <= i < k ==> url[i] == prefix[i];
    assert FirstDigit(url) == Some(k);
    assert forall i :: k <= i < k + |id| ==> url[i] == id[i - k];
    assert k + |id| < |url| ==> url[k + |id|] == rest[0];
    DigitsFromOfRun(url, k, |id|);
    assert url[k..k + |id|] == id;
  }

  /** `${illustId}_p${p}`: the stem every file of sub-asset `p` of an item starts with. */
  function StemOf(id: string, p: nat): string
  {
    id + "_p" + NatToString(p)
  }

  /**
   Length of the match of `\d+_p\d+\.\D+` that starts at position `j` of
   `s`, if there is one.
   */
  function MatchLen(s: string, j: nat): (r: Option<nat>)
    requires j <= |s|
    ensures r.Some? ==> 0 < r.value <= |s| - j
  {
    var a := DigitsFrom(s, j);
    if a == 0 || j + a + 2 > |s| || s[j + a] != '_' || s[j + a + 1] != 'p' then None
    else
      var b := DigitsFrom(s, j + a + 2);
      var f := j + a + 2 + b;
      if b == 0 || f >= |s| || s[f] != '.' then None
      else
        var g := NonDigitsFrom(s, f + 1);
        if g == 0 then None else Some(f + 1 + g - j)
  }

  /** Start and length of the leftmost match of the file-name pattern at or after `i`. */
  function FirstMatchFrom(s: string, i: nat): (r: Option<(nat, nat)>)
    requires i <= |s|
    ensures r.Some? ==> i <= r.value.0 < |s| && MatchLen(s, r.value.0) == Some(r.value.1)
    ensures r.Some? ==> forall j :: i <= j < r.value.0 ==> MatchLen(s, j).None?
    ensures r.None? ==> forall j :: i <= j < |s| ==> MatchLen(s, j).None?
    decreases |s| - i
  {
    if i == |s| then None
    else match MatchLen(s, i)
      case Some(len) => Some((i, len))
      case None => FirstMatchFrom(s, i + 1)
  }

  /**
   `originalImgUrl.match(/\d+_p\d+\.\D+/)[0]`: the image file name in the
   original image URL. `None` stands for the TypeError raised when nothing
   matches.
   */
  function FileNameOf(src: string): (r: Option<string>)
    ensures r.Some? ==> |r.value| > 0 && Contains(src, r.value)
    ensures r.Some? ==> (exists j :: 0 <= j < |src| && MatchLen(src, j) == Some(|r.value|) && src[j..j + |r.value|] == r.value
                                     && forall i :: 0 <= i < j ==> MatchLen(src, i).None?)
    ensures r.None? ==> forall j :: 0 <= j < |src| ==> MatchLen(src, j).None?
  {
    match FirstMatchFrom(src, 0)
    case None => None
    case Some((j, len)) =>
      var name := src[j..j + len];
      assert OccursAt(src, name, j);
      Some(name)
  }

  /**
   `\d+_p\d+\.\D+` matches the whole of `${id}_p${p}.${ext}` when `ext` has no
   digit, wherever that name stands in a longer text.
   */
  lemma MatchLenOfStemFile(prefix: string, id: string, p: nat, ext: string)
    requires |id| > 0 && AllDigits(id) && |ext| > 0 && NoDigits(ext)
    ensures var name := StemOf(id, p) + "." + ext;
      MatchLen(prefix + name, |prefix|) == Some(|name|)
  {
    var digits := NatToString(p);
    var name := StemOf(id, p) + "." + ext;
    var s := prefix + name;
    var j := |prefix|;
    var a := |id|;
    var b := |digits|;
    var f := j + a + 2 + b;
    assert |s| == f + 1 + |ext|;
    assert forall i :: j <= i < j + a ==> s[i] == id[i - j];
    assert s[j + a] == '_' && s[j + a + 1] == 'p';
    DigitsFromOfRun(s, j, a);
    assert forall i :: j + a + 2 <= i < f ==> s[i] == digits[i - j - a - 2];
    assert s[f] == '.';
    DigitsFromOfRun(s, j + a + 2, b);
    assert forall i :: f + 1 <= i < |s| ==> s[i] == ext[i - f - 1];
    NonDigitsFromOfRun(s, f + 1, |ext|);
  }

  /**
   A file name that the pattern matches whole is read back from any image URL
   that ends with it, provided no earlier position of the URL already matches
   (an image URL whose directories hold no digit at all is one such URL; so is
   one whose digit runs are all followed by `/`).
   */
  lemma FileNameOfImageUrl(prefix: string, name: string)
    requires MatchLen(prefix + name, |prefix|) == Some(|name|)
    requires forall j :: 0 <= j < |prefix| ==> MatchLen(prefix + name, j).None?
    ensures FileNameOf(prefix + name) == Some(name)
  {
    var src := prefix + name;
    FirstMatchIsLeftmost(src, 0, |prefix|);
    assert src[|prefix|..|prefix| + |name|] == name;
  }

  /** The scan stops at the first position where the pattern matches. */
  lemma {:induction false} FirstMatchIsLeftmost(s: string, i: nat, k: nat)
    requires i <= k < |s| && MatchLen(s, k).Some?
    requires forall j :: i <= j < k ==> MatchLen(s, j).None?
    ensures FirstMatchFrom(s, i) == Some((k, MatchLen(s, k).value))
    decreases k - i
  {
    if i < k {
      FirstMatchIsLeftmost(s, i + 1, k);
    }
  }

  /** Position of the first `.` that is followed by a non-digit (the first match of `/\.\D+/`), at or after `i`. */
  function ExtensionFrom(s: string, i: nat): (r: Option<nat>)
    requires i <= |s|
    ensures r.Some? ==> i <= r.value && r.value + 1 < |s| && s[r.value] == '.' && !IsDigit(s[r.value + 1])
    ensures r.Some? ==> forall j :: i <= j < r.value ==> !(s[j] == '.' && !IsDigit(s[j + 1]))
    ensures r.None? ==> forall j :: i <= j < |s| - 1 ==> !(s[j] == '.' && !IsDigit(s[j + 1]))
    decreases |s| - i
  {
    if i + 1 >= |s| then None
    else if s[i] == '.' && !IsDigit(s[i + 1]) then Some(i)
    else ExtensionFrom(s, i + 1)
  }

  /** `imgFileName.split(/\.\D+/)[0]`: the name of the metadata record, before `.json` is appended. */
  function MetaName(fileName: string): (r: string)
    ensures HasPrefix(fileName, r)
  {
    match ExtensionFrom(fileName, 0)
    case None => fileName
    case Some(k) => fileName[..k]
  }

  /** The metadata record of `${id}_p${p}.${ext}` is named `${id}_p${p}`. */
  lemma MetaNameOfStemFile(id: string, p: nat, ext: string)
    requires AllDigits(id) && |ext| > 0 && !IsDigit(ext[0])
    ensures MetaName(StemOf(id, p) + "." + ext) == StemOf(id, p)
  {
    var stem := StemOf(id, p);
    var name := stem + "." + ext;
    var digits := NatToString(p);
    assert '.' !in stem by {
      forall j | 0 <= j < |stem| ensures stem[j] != '.' {
        if j < |id| { assert stem[j] == id[j]; }
        else if j >= |id| + 2 { assert stem[j] == digits[j - |id| - 2]; }
      }
    }
    assert name[|stem|] == '.' && name[|stem| + 1] == ext[0];
    assert forall j :: 0 <= j < |stem| ==> name[j] == stem[j];
    var r := ExtensionFrom(name, 0);
    assert r == Some(|stem|);
    assert name[..|stem|] == stem;
  }
}

=== FILE: paginator.dfy ===
/**
 The bookmark collection as pages of items, and where a run starts
 (`adjustStartPage`). Pages are numbered from 1 and a number outside the
 collection reads as a page with no illust container. A fresh run starts at
 the last page, `Math.ceil(total / 48)`; a resumed run goes to the
 checkpoint's page and moves forward one page at a time until the
 checkpoint's URL is on the page, failing when the next page has no items.
 */
module Paginator {
  import opened Text
  import opened Classify
  import opened Store

  datatype Item = Item(url: string, view: ItemView)

  type Collection = seq<seq<Item>>

  /** `6*8`: items shown on one bookmark page. */
  const PageSize: nat := 6 * 8

  function PageAt(c: Collection, p: int): (items: seq<Item>)
    ensures |items| > 0 <==> HasItems(c, p)
  {
    if 1 <= p <= |c| then c[p - 1] else []
  }

  /** Page `p` shows an illust container: it is in the collection and has at least one item. */
  predicate HasItems(c: Collection, p: int)
  {
    1 <= p <= |c| && |c[p - 1]| > 0
  }

  /**
   Reading page `p` with the page-reading poll: the poll's exit test sees one
   anchor per item. Once every anchor has its image the poll ends exactly
   when the page has items; on a page without items no count of images ever
   ends it, so the read never returns.
   */
  lemma PollEndsOnItems(c: Collection, p: int)
    ensures Stabilized(|PageAt(c, p)|, |PageAt(c, p)|) <==> HasItems(c, p)
    ensures !HasItems(c, p) <==> forall images: nat :: !Stabilized(|PageAt(c, p)|, images)
  {
    if HasItems(c, p) {
      assert Stabilized(|PageAt(c, p)|, |PageAt(c, p)|);
    }
  }

  /** Some item of the page has this URL. */
  predicate OnPage(items: seq<Item>, url: string)
  {
    exists k :: 0 <= k < |items| && items[k].url == url
  }

  /**
   The last page for `total` bookmarks: `Math.ceil(total / 48)`. Floor
   division of `total + 47` gives the ceiling for every integer.
   */
  function FreshStart(total: int): (n: int)
    ensures (n - 1) * PageSize < total <= n * PageSize
  {
    (total + PageSize - 1) / PageSize
  }

  /** Total number of items in the collection. */
  function Total(c: Collection): nat
  {
    if |c| == 0 then 0 else Total(c[..|c| - 1]) + |c[|c| - 1]|
  }

  /** Every page but the last is full, and the last holds at least one item. */
  predicate WellPaged(c: Collection)
  {
    |c| > 0 && 0 < |c[|c| - 1]| <= PageSize && forall i :: 0 <= i < |c| - 1 ==> |c[i]| == PageSize
  }

  /** The count of a collection paged 48 at a time leads a fresh run to its last page. */
  lemma FreshStartIsLastPage(c: Collection)
    requires WellPaged(c)
    ensures FreshStart(Total(c)) == |c|
  {
    var front := c[..|c| - 1];
    FullPagesTotal(front);
    assert Total(c) == (|c| - 1) * PageSize + |c[|c| - 1]|;
  }

  lemma {:induction false} FullPagesTotal(c: Collection)
    requires forall i :: 0 <= i < |c| ==> |c[i]| == PageSize
    ensures Total(c) == |c| * PageSize
  {
    if |c| > 0 {
      FullPagesTotal(c[..|c| - 1]);
      assert |c[|c| - 1]| == PageSize;
    }
  }

  /** How start-page resolution ends. */
  datatype Resolution =
    | Resume(page: int)   // the walk starts at this page
    | Lost(page: int)     // this page has no items: `adjustStartPage` returns false
    | Stuck(page: int)    // the first page read has no items: the read polls forever

  /**
   The forward scan of a resumed run, from a page that has items: the first
   page at or after `p` that holds `url`, or the first page without items if
   that comes earlier.
   */
  function ScanFrom(c: Collection, p: int, url: string): (r: Resolution)
    requires HasItems(c, p)
    ensures !r.Stuck?
    ensures forall q :: p <= q < r.page ==> HasItems(c, q) && !OnPage(PageAt(c, q), url)
    ensures r.Resume? ==> p <= r.page && OnPage(PageAt(c, r.page), url)
    ensures r.Lost? ==> p < r.page && !HasItems(c, r.page)
    decreases |c| - p
  {
    if OnPage(PageAt(c, p), url) then Resume(p)
    else if !HasItems(c, p + 1) then Lost(p + 1)
    else ScanFrom(c, p + 1, url)
  }

  /** `adjustStartPage`: a fresh run goes to the last page; a resumed run scans from the checkpoint's page. */
  function StartPage(checkpoint: Option<Checkpoint>, total: int, c: Collection): (r: Resolution)
    ensures checkpoint.None? ==> r == Resume(FreshStart(total))
    ensures r.Stuck? <==> checkpoint.Some? && !HasItems(c, checkpoint.value.page)
    ensures r.Stuck? ==> r.page == checkpoint.value.page
    ensures r.Stuck? ==> forall images: nat :: !Stabilized(|PageAt(c, r.page)|, images)
    ensures checkpoint.Some? && r.Resume? ==> checkpoint.value.page <= r.page && OnPage(PageAt(c, r.page), checkpoint.value.url)
    ensures checkpoint.Some? && r.Lost? ==> checkpoint.value.page < r.page && !HasItems(c, r.page)
  {
    match checkpoint
    case None => Resume(FreshStart(total))
    case Some(ck) =>
      PollEndsOnItems(c, ck.page);
      if !HasItems(c, ck.page) then Stuck(ck.page) else ScanFrom(c, ck.page, ck.url)
  }

  /**
   A resumed run starts on the first page, from the checkpoint's, that holds
   the checkpoint's URL, as long as every page up to it has items: the page
   the URL was saved on when the collection has not changed, and the page it
   moved to when bookmarks added since pushed it further.
   */
  lemma ResumeFindsCheckpoint(ck: Checkpoint, total: int, c: Collection, q: int)
    requires ck.page <= q && OnPage(PageAt(c, q), ck.url)
    requires forall p :: ck.page <= p < q ==> HasItems(c, p) && !OnPage(PageAt(c, p), ck.url)
    ensures StartPage(Some(ck), total, c) == Resume(q)
  {
  }

  /** Resuming from a checkpoint whose URL is on its own page starts on that page. */
  lemma ResumeAtCheckpointPage(ck: Checkpoint, total: int, c: Collection)
    requires OnPage(PageAt(c, ck.page), ck.url)
    ensures StartPage(Some(ck), total, c) == Resume(ck.page)
  {
    ResumeFindsCheckpoint(ck, total, c, ck.page);
  }

  /** When no page up to the first empty one holds the checkpoint's URL, the resume fails at that page. */
  lemma ResumeLosesCheckpoint(ck: Checkpoint, total: int, c: Collection, q: int)
    requires ck.page < q && !HasItems(c, q)
    requires forall p :: ck.page <= p < q ==> HasItems(c, p) && !OnPage(PageAt(c, p), ck.url)
    ensures StartPage(Some(ck), total, c) == Lost(q)
  {
  }
}

=== FILE: popup.dfy ===
/**
 `popupIllust`: middle-click the sub-asset's anchor until a click goes through,
 at most `MaxClicks` times. Whether click attempt `k` throws is an input
 (`click(k)` is true when it does not).
 */
module Popup {
  import opened Text

  const MaxClicks: nat := 20

  /** Some attempt below the limit goes through. */
  predicate OpensWithin(click: nat -> bool)
  {
    exists k: nat :: k < MaxClicks && click(k)
  }

  /** The first attempt at or after `i` that goes through, if one does before the limit. */
  function FirstClickFrom(click: nat -> bool, i: nat): (r: Option<nat>)
    requires i <= MaxClicks
    ensures r.Some? ==> i <= r.value < MaxClicks && click(r.value)
    ensures r.Some? ==> forall k: nat :: i <= k < r.value ==> !click(k)
    ensures r.None? <==> forall k: nat :: i <= k < MaxClicks ==> !click(k)
    decreases MaxClicks - i
  {
    if i == MaxClicks then None
    else if click(i) then Some(i)
    else FirstClickFrom(click, i + 1)
  }

  /** The attempt that opens the popup; `None` is the "error popup illust" throw. */
  function FirstClick(click: nat -> bool): (r: Option<nat>)
    ensures r.None? <==> !OpensWithin(click)
    ensures r.Some? ==> r.value < MaxClicks && click(r.value) && forall k: nat :: k < r.value ==> !click(k)
  {
    FirstClickFrom(click, 0)
  }

  /**
   The retry loop itself: it stops at the first attempt that goes through and
   reports failure exactly when all `MaxClicks` attempts throw.
   */
  method PopupIllust(click: nat -> bool) returns (r: Option<nat>)
    ensures r.None? <==> !OpensWithin(click)
    ensures r.Some? ==> r.value < MaxClicks && click(r.value)
    ensures r.Some? ==> forall k: nat :: k < r.value ==> !click(k)
  {
    var i: nat := 0;
    while i < MaxClicks
      invariant i <= MaxClicks
      invariant forall k: nat :: k < i ==> !click(k)
    {
      if click(i) {
        break;
      }
      i := i + 1;
    }
    if i == MaxClicks {
      r := None;
    } else {
      r := Some(i);
    }
  }

  /** The loop and the recursive definition agree on every click history. */
  lemma PopupAgrees(click: nat -> bool, r: Option<nat>)
    requires r.None? <==> !OpensWithin(click)
    requires r.Some? ==> r.value < MaxClicks && click(r.value) && forall k: nat :: k < r.value ==> !click(k)
    ensures r == FirstClick(click)
  {
  }
}

=== FILE: store.dfy ===
/**
 What the program keeps on disk, as plain data: the names of the files in
 the image directory, the metadata records of the info directory (keyed by
 their name without `.json`), and the checkpoint file `log/last-saved-illust.json`
 (`{bookmarkPageNum, url}`), absent before the first save.
 */
module Store {
  import opened Text
  import opened FileNames

  /** The checkpoint `updateLastSavedIllust` writes. */
  datatype Checkpoint = Checkpoint(page: int, url: string)

  /** A metadata record: the item URL and the image file it describes (the scraped title, author and tags are not modelled). */
  datatype InfoRecord = InfoRecord(url: string, fileName: string)

  datatype State = State(images: seq<string>, infos: map<string, InfoRecord>, checkpoint: Option<Checkpoint>)

  /** A directory listing names each file once. */
  predicate NoDup(s: seq<string>)
  {
    forall i, j :: 0 <= i < j < |s| ==> s[i] != s[j]
  }

  /**
   The write-once part of `saveIllustAndInfo`: when the image file already
   exists nothing is written; otherwise the image is written and so is its
   metadata record, under the file name cut before its extension.
   */
  function SaveImage(st: State, itemUrl: string, name: string): (r: State)
    ensures name in r.images
    ensures st.images <= r.images && |r.images| <= |st.images| + 1
    ensures NoDup(st.images) ==> NoDup(r.images)
    ensures r.checkpoint == st.checkpoint
    ensures name in st.images ==> r == st
    ensures name !in st.images ==> MetaName(name) in r.infos && r.infos[MetaName(name)] == InfoRecord(itemUrl, name)
    ensures forall key :: key in st.infos && key != MetaName(name) ==> key in r.infos && r.infos[key] == st.infos[key]
    ensures forall key :: key in r.infos ==> key in st.infos || key == MetaName(name)
  {
    if name in st.images then st
    else st.(images := st.images + [name], infos := st.infos[MetaName(name) := InfoRecord(itemUrl, name)])
  }

  /** Saving the same file a second time changes nothing, whichever item asks. */
  lemma SaveImageWriteOnce(st: State, itemUrl: string, itemUrl': string, name: string)
    ensures SaveImage(SaveImage(st, itemUrl, name), itemUrl', name) == SaveImage(st, itemUrl, name)
  {
  }

  /** `updateLastSavedIllust`: the checkpoint file is overwritten; the images and records are untouched. */
  function RecordCheckpoint(st: State, page: int, url: string): (r: State)
    ensures r.images == st.images && r.infos == st.infos
    ensures r.checkpoint.Some? && r.checkpoint.value.page == page && r.checkpoint.value.url == url
  {
    st.(checkpoint := Some(Checkpoint(page, url)))
  }
}

=== FILE: text.dfy ===
/**
 Strings as sequences of characters: character classes, maximal runs, decimal
 rendering of integers (as a JavaScript template literal prints them) and
 JavaScript's `parseInt` with no radix argument, where NaN is `None`.
 */
module Text {

  datatype Option<+T> = None | Some(value: T)

  /** Value of `c` as a digit of bases up to 36 (`0-9`, `a-z`, `A-Z`); 36 for any other character. */
  function CharValue(c: char): nat
  {
    if '0' <= c <= '9' then c as int - '0' as int
    else if 'a' <= c <= 'z' then c as int - 'a' as int + 10
    else if 'A' <= c <= 'Z' then c as int - 'A' as int + 10
    else 36
  }

  predicate IsDigitIn(c: char, base: nat) { CharValue(c) < base }

  /** `\d` of a regular expression. */
  predicate IsDigit(c: char) { IsDigitIn(c, 10) }

  predicate AllDigits(s: string) { forall i :: 0 <= i < |s| ==> IsDigit(s[i]) }

  predicate NoDigits(s: string) { forall i :: 0 <= i < |s| ==> !IsDigit(s[i]) }

  predicate HasPrefix(s: string, p: string) { |p| <= |s| && s[..|p|] == p }

  predicate HasSuffix(s: string, p: string) { |p| <= |s| && s[|s| - |p|..] == p }

  /** `s.includes(t)` */
  predicate Contains(s: string, t: string)
  {
    exists i :: 0 <= i <= |s| - |t| && OccursAt(s, t, i)
  }

  predicate OccursAt(s: string, t: string, i: int)
    requires 0 <= i <= |s| - |t|
  {
    s[i..i + |t|] == t
  }

  /** `s.indexOf(c)`, with `None` for -1. */
  function IndexOf(s: string, c: char): (r: Option<nat>)
    ensures r.Some? ==> r.value < |s| && s[r.value] == c
    ensures r.Some? ==> forall i :: 0 <= i < r.value ==> s[i] != c
    ensures r.None? <==> c !in s
  {
    if |s| == 0 then None
    else if s[0] == c then Some(0)
    else match IndexOf(s[1..], c)
      case None => None
      case Some(k) => Some(k + 1)
  }

  /** The first occurrence of `c` is found where it is. */
  lemma IndexOfFirst(s: string, c: char, k: nat)
    requires k < |s| && s[k] == c
    requires forall i :: 0 <= i < k ==> s[i] != c
    ensures IndexOf(s, c) == Some(k)
  {
  }

  /** Length of the longest prefix of `s` made of digits of `base`. */
  function RunIn(s: string, base: nat): (k: nat)
    ensures k <= |s|
    ensures forall i :: 0 <= i < k ==> IsDigitIn(s[i], base)
    ensures k == |s| || !IsDigitIn(s[k], base)
  {
    if |s| > 0 && IsDigitIn(s[0], base) then 1 + RunIn(s[1..], base) else 0
  }

  /** A run of digits followed by a non-digit (or by nothing) is exactly as long as the digits. */
  lemma {:induction false} RunOfDigitsThen(x: string, y: string, base: nat)
    requires forall i :: 0 <= i < |x| ==> IsDigitIn(x[i], base)
    requires y == [] || !IsDigitIn(y[0], base)
    ensures RunIn(x + y, base) == |x|
  {
    if |x| > 0 {
      assert (x + y)[1..] == x[1..] + y;
      RunOfDigitsThen(x[1..], y, base);
    } else {
      assert x + y == y;
    }
  }

  /** Positional value of a string of digits of `base`. */
  function ValueIn(s: string, base: nat): nat
    requires forall i :: 0 <= i < |s| ==> IsDigitIn(s[i], base)
    decreases |s|
  {
    if |s| == 0 then 0
    else
      var high := ValueIn(s[..|s| - 1], base);
      var low := CharValue(s[|s| - 1]);
      assert high * base >= 0;
      high * base + low
  }

  function DigitChar(d: nat): (c: char)
    requires d < 10
    ensures IsDigit(c) && CharValue(c) == d
  {
    ('0' as int + d) as char
  }

  /** Decimal rendering of a natural number, without leading zeros. */
  function NatToString(n: nat): (s: string)
    ensures |s| > 0 && AllDigits(s)
    ensures n > 0 ==> s[0] != '0'
    ensures |s| > 1 ==> s[0] != '0'
  {
    if n < 10 then [DigitChar(n)] else NatToString(n / 10) + [DigitChar(n % 10)]
  }

  /** `${n}` for an integer `n`. */
  function IntToString(n: int): (s: string)
    ensures |s| > 0
    ensures forall i :: 0 <= i < |s| ==> IsDigit(s[i]) || s[i] == '-'
  {
    if n < 0 then "-" + NatToString(-n) else NatToString(n)
  }

  /** Reading back the decimal rendering of `n` gives `n`. */
  lemma {:induction false} NatToStringValue(n: nat)
    ensures ValueIn(NatToString(n), 10) == n
  {
    if n >= 10 {
      NatToStringValue(n / 10);
      var s := NatToString(n);
      assert s[..|s| - 1] == NatToString(n / 10);
    }
  }

  /** Distinct numbers render differently. */
  lemma NatToStringInjective(a: nat, b: nat)
    requires NatToString(a) == NatToString(b)
    ensures a == b
  {
    NatToStringValue(a);
    NatToStringValue(b);
  }

  /** The characters `String.prototype.trim` and `parseInt` treat as white space. */
  predicate IsJsSpace(c: char)
  {
    || c == ' ' || c == '\t' || c == '\n' || c == '\r' || c == '\U{000B}' || c == '\U{000C}'
    || c == '\U{00A0}' || c == '\U{1680}' || ('\U{2000}' <= c <= '\U{200A}')
    || c == '\U{2028}' || c == '\U{2029}' || c == '\U{202F}' || c == '\U{205F}'
    || c == '\U{3000}' || c == '\U{FEFF}'
  }

  /** `s` without its leading white space. */
  function TrimStart(s: string): (r: string)
    ensures |r| <= |s| && r == s[|s| - |r|..]
    ensures |r| == 0 || !IsJsSpace(r[0])
    ensures forall i :: 0 <= i < |s| - |r| ==> IsJsSpace(s[i])
  {
    if |s| > 0 && IsJsSpace(s[0]) then TrimStart(s[1..]) else s
  }

  /**
   The unsigned part of `parseInt`: a `0x`/`0X` prefix selects base 16 and
   otherwise the base is 10; the value is the longest run of digits of that
   base, and no digit at all gives NaN (`None`).
   */
  function ParseUnsigned(u: string): Option<nat>
  {
    var hex := |u| >= 2 && u[0] == '0' && (u[1] == 'x' || u[1] == 'X');
    var base := if hex then 16 else 10;
    var body := if hex then u[2..] else u;
    var k := RunIn(body, base);
    if k == 0 then None else Some(ValueIn(body[..k], base))
  }

  /**
   `parseInt(s)` with no radix, as ECMAScript defines it: leading white space
   is skipped, one sign is read, and the rest is read by `ParseUnsigned`.
   */
  function ParseInt(s: string): Option<int>
  {
    var t := TrimStart(s);
    var negative := |t| > 0 && t[0] == '-';
    var u := if |t| > 0 && (t[0] == '-' || t[0] == '+') then t[1..] else t;
    match ParseUnsigned(u)
    case None => None
    case Some(m) =>
      var v: int := if negative then -(m as int) else m;
      Some(v)
  }

  /** The decimal rendering of `m`, followed by anything that is not a digit nor `x`/`X`, reads back as `m`. */
  lemma ParseUnsignedOfNatToString(m: nat, rest: string)
    requires rest == [] || (!IsDigit(rest[0]) && rest[0] != 'x' && rest[0] != 'X')
    ensures ParseUnsigned(NatToString(m) + rest) == Some(m)
  {
    var d := NatToString(m);
    var u := d + rest;
    assert !(|u| >= 2 && u[0] == '0' && (u[1] == 'x' || u[1] == 'X')) by {
      if |u| >= 2 && u[0] == '0' {
        assert d[0] == '0';
        assert |d| == 1;
        assert u[1] == rest[0];
      }
    }
    RunOfDigitsThen(d, rest, 10);
    assert u[..|d|] == d;
    NatToStringValue(m);
  }

  /**
   `parseInt` reads back what `${n}` printed, whatever follows it, as long as
   the next character neither continues the number nor turns a leading `0`
   into a hexadecimal prefix.
   */
  lemma ParseIntOfIntToString(n: int, rest: string)
    requires rest == [] || (!IsDigit(rest[0]) && rest[0] != 'x' && rest[0] != 'X')
    ensures ParseInt(IntToString(n) + rest) == Some(n)
  {
    if n < 0 {
      ParseIntOfNegative(n, rest);
    } else {
      ParseIntOfNonNegative(n, rest);
    }
  }

  lemma ParseIntOfNonNegative(n: nat, rest: string)
    requires rest == [] || (!IsDigit(rest[0]) && rest[0] != 'x' && rest[0] != 'X')
    ensures ParseInt(IntToString(n) + rest) == Some(n)
  {
    var u := NatToString(n) + rest;
    assert IntToString(n) + rest == u;
    ParseUnsignedOfNatToString(n, rest);
    assert IsDigit(u[0]) by { assert u[0] == NatToString(n)[0]; }
    ParseIntOfDigits(u);
  }

  lemma ParseIntOfNegative(n: int, rest: string)
    requires n < 0
    requires rest == [] || (!IsDigit(rest[0]) && rest[0] != 'x' && rest[0] != 'X')
    ensures ParseInt(IntToString(n) + rest) == Some(n)
  {
    var m: nat := -n;
    var u := NatToString(m) + rest;
    ParseUnsignedOfNatToString(m, rest);
    assert IsDigit(u[0]) by { assert u[0] == NatToString(m)[0]; }
    NegativeToString(n);
    SignThen(NatToString(m), rest);
    ParseIntOfMinus(IntToString(n) + rest, u, m);
  }

  lemma NegativeToString(n: int)
    requires n < 0
    ensures IntToString(n) == "-" + NatToString(-n)
  {
  }

  lemma SignThen(d: string, rest: string)
    ensures ("-" + d) + rest == "-" + (d + rest)
  {
  }

  /** Text that starts with a digit is read without sign. */
  lemma ParseIntOfDigits(u: string)
    requires |u| > 0 && IsDigit(u[0])
    requires ParseUnsigned(u).Some?
    ensures ParseInt(u) == Some(ParseUnsigned(u).value as int)
  {
    NoSpaceToTrim(u);
    assert u[0] != '-' && u[0] != '+' by { assert '0' <= u[0] <= '9'; }
  }

  /** A minus sign directly followed by a digit negates what follows. */
  lemma ParseIntOfMinus(s: string, u: string, m: nat)
    requires s == "-" + u
    requires |u| > 0 && IsDigit(u[0])
    requires ParseUnsigned(u) == Some(m)
    ensures ParseInt(s) == Some(-(m as int))
  {
    NoSpaceToTrim(s);
    assert s[0] == '-';
    assert s[1..] == u;
  }

  lemma NoSpaceToTrim(s: string)
    requires |s| > 0 && (IsDigit(s[0]) || s[0] == '-')
    ensures TrimStart(s) == s
  {
    assert !IsJsSpace(s[0]);
  }
}

=== FILE: theorems.dfy ===
/**
 What a run achieves. When the browser serves each sub-asset the image of
 that sub-asset, a walk that passes page 1 leaves every sub-asset of every
 item it read counted as saved; running the program again on an unchanged
 collection then changes nothing on disk. Under the dedup rule as written
 "counted as saved" can hold for a sub-asset that has no file, which the
 last two lemmas show on one item.
 */
module Theorems {
  import opened Text
  import opened FileNames
  import opened Dedup
  import opened Classify
  import opened Popup
  import opened Store
  import opened Paginator
  import opened Driver

  /** The image the popup of sub-asset `p` shows, if its name is readable, is a file of that sub-asset. */
  predicate ShotMatches(b: Browser, url: string, id: string, p: nat)
  {
    var name := FileNameOf(b.shot(url, p).imgSrc);
    name.Some? ==> HasPrefix(name.value, StemOf(id, p) + ".")
  }

  /** The browser always serves the sub-asset asked for. */
  ghost predicate Faithful(b: Browser)
  {
    forall url, p: nat :: IllustId(url).Some? ==> ShotMatches(b, url, IllustId(url).value, p)
  }

  predicate AllSaved(rule: Rule, images: seq<string>, id: string, count: nat)
  {
    forall p: nat :: p < count ==> Saved(rule, images, id, p)
  }

  /** Nothing is left to do for the item: the walk can pass it without a save and without a throw. */
  predicate ItemDone(rule: Rule, b: Browser, item: Item, images: seq<string>)
  {
    var t := IllustType(item.view);
    || IsUgoira(t)
    || (&& (!IsManga(t) || b.galleryOpens(item.url))
        && (SubAssetCount(t) == 0
            || (IllustId(item.url).Some? && AllSaved(rule, images, IllustId(item.url).value, SubAssetCount(t)))))
  }

  predicate PageDone(rule: Rule, b: Browser, items: seq<Item>, images: seq<string>)
  {
    forall k :: 0 <= k < |items| ==> ItemDone(rule, b, items[k], images)
  }

  /** Pages `1 .. n` all have items and nothing is left to do on them. */
  predicate PagesDone(rule: Rule, b: Browser, c: Collection, n: int, images: seq<string>)
  {
    forall q :: 1 <= q <= n ==> HasItems(c, q) && PageDone(rule, b, PageAt(c, q), images)
  }

  // Sub-assets

  /** A sub-asset the loop passes without a throw counts as saved afterwards. */
  lemma SubAssetSaves(rule: Rule, b: Browser, n: int, url: string, id: string, p: nat, st: State)
    requires ShotMatches(b, url, id, p)
    requires SubAsset(rule, b, n, url, id, p, st).Done?
    ensures Saved(rule, SubAsset(rule, b, n, url, id, p, st).st.images, id, p)
  {
    if !Saved(rule, st.images, id, p) {
      var name := FileNameOf(b.shot(url, p).imgSrc).value;
      var images := SubAsset(rule, b, n, url, id, p, st).st.images;
      var k :| 0 <= k < |images| && images[k] == name;
      StemFileIsSaved(rule, images, id, p, k);
    }
  }

  lemma {:induction false} SubAssetsComplete(rule: Rule, b: Browser, n: int, url: string, id: string, p: nat, count: nat, st: State)
    requires forall q: nat :: p <= q < count ==> ShotMatches(b, url, id, q)
    requires SubAssets(rule, b, n, url, id, p, count, st).Done?
    ensures forall q: nat :: p <= q < count ==> Saved(rule, SubAssets(rule, b, n, url, id, p, count, st).st.images, id, q)
    decreases count - p
  {
    if p < count {
      var st' := SubAsset(rule, b, n, url, id, p, st).st;
      var final := SubAssets(rule, b, n, url, id, p, count, st).st;
      assert SubAsset(rule, b, n, url, id, p, st).Done? && final == SubAssets(rule, b, n, url, id, p + 1, count, st').st;
      SubAssetSaves(rule, b, n, url, id, p, st);
      SubAssetsComplete(rule, b, n, url, id, p + 1, count, st');
      PrefixKept(st'.images, final.images);
      SavedStaysSaved(rule, st'.images, final.images, id, p);
      forall q: nat | p <= q < count ensures Saved(rule, final.images, id, q) {
        if q > p {
          assert Saved(rule, SubAssets(rule, b, n, url, id, p + 1, count, st').st.images, id, q);
        }
      }
    }
  }

  /**
   A throw in the sub-asset loop comes at the first sub-index, counting up
   from `p`, that the browser does not deliver: every sub-index below it
   counts as saved afterwards, and it does not. A re-run then skips the
   saved ones and starts at that sub-index.
   */
  lemma {:induction false} SubAssetsCrashPrefix(rule: Rule, b: Browser, n: int, url: string, id: string, p: nat, count: nat, st: State)
    requires forall q: nat :: p <= q < count ==> ShotMatches(b, url, id, q)
    requires SubAssets(rule, b, n, url, id, p, count, st).Failed?
    ensures var images := SubAssets(rule, b, n, url, id, p, count, st).st.images;
      exists j: nat :: p <= j < count && !Delivers(b, url, j) && !Saved(rule, images, id, j)
        && forall q: nat :: p <= q < j ==> Saved(rule, images, id, q)
    decreases count - p
  {
    var s := SubAsset(rule, b, n, url, id, p, st);
    var images := SubAssets(rule, b, n, url, id, p, count, st).st.images;
    if s.Failed? {
      assert images == st.images;
      assert !Delivers(b, url, p) && !Saved(rule, images, id, p);
    } else {
      var st' := s.st;
      assert images == SubAssets(rule, b, n, url, id, p + 1, count, st').st.images;
      SubAssetsCrashPrefix(rule, b, n, url, id, p + 1, count, st');
      var j: nat :| p + 1 <= j < count && !Delivers(b, url, j) && !Saved(rule, images, id, j)
        && forall q: nat :: p + 1 <= q < j ==> Saved(rule, images, id, q);
      SubAssetSaves(rule, b, n, url, id, p, st);
      PrefixKept(st'.images, images);
      SavedStaysSaved(rule, st'.images, images, id, p);
      assert forall q: nat :: p <= q < j ==> Saved(rule, images, id, q);
    }
  }

  lemma {:induction false} SubAssetsNoop(rule: Rule, b: Browser, n: int, url: string, id: string, p: nat, count: nat, st: State)
    requires forall q: nat :: p <= q < count ==> Saved(rule, st.images, id, q)
    ensures SubAssets(rule, b, n, url, id, p, count, st) == Done(st)
    decreases count - p
  {
    if p < count {
      SubAssetsNoop(rule, b, n, url, id, p + 1, count, st);
    }
  }

  // Items

  /** An item the walk passes without a throw has nothing left to do afterwards. */
  lemma ItemComplete(rule: Rule, b: Browser, n: int, item: Item, st: State)
    requires Faithful(b)
    requires ProcessItem(rule, b, n, item, st).Done?
    ensures ItemDone(rule, b, item, ProcessItem(rule, b, n, item, st).st.images)
  {
    var t := IllustType(item.view);
    var count := SubAssetCount(t);
    if !IsUgoira(t) && count > 0 {
      var id := IllustId(item.url).value;
      forall q: nat | q < count ensures ShotMatches(b, item.url, id, q) {
        assert ShotMatches(b, item.url, IllustId(item.url).value, q);
      }
      SubAssetsComplete(rule, b, n, item.url, id, 0, count, st);
    }
  }

  /** An item with nothing left to do is passed without any change on disk. */
  lemma ItemNoop(rule: Rule, b: Browser, n: int, item: Item, st: State)
    requires ItemDone(rule, b, item, st.images)
    ensures ProcessItem(rule, b, n, item, st) == Done(st)
  {
    var t := IllustType(item.view);
    var count := SubAssetCount(t);
    if !IsUgoira(t) && count > 0 {
      SubAssetsNoop(rule, b, n, item.url, IllustId(item.url).value, 0, count, st);
    }
  }

  lemma ItemDoneKept(rule: Rule, b: Browser, item: Item, images: seq<string>, images': seq<string>)
    requires ItemDone(rule, b, item, images) && Kept(images, images')
    ensures ItemDone(rule, b, item, images')
  {
    var t := IllustType(item.view);
    var count := SubAssetCount(t);
    if !IsUgoira(t) && count > 0 {
      var id := IllustId(item.url).value;
      forall q: nat | q < count ensures Saved(rule, images', id, q) {
        SavedStaysSaved(rule, images, images', id, q);
      }
    }
  }

  // Pages

  lemma {:induction false} ItemsComplete(rule: Rule, b: Browser, n: int, items: seq<Item>, k: nat, st: State)
    requires Faithful(b) && k <= |items|
    requires ProcessItems(rule, b, n, items, k, st).Done?
    ensures forall j :: k <= j < |items| ==> ItemDone(rule, b, items[j], ProcessItems(rule, b, n, items, k, st).st.images)
    decreases |items| - k
  {
    if k < |items| {
      var o := ProcessItem(rule, b, n, items[k], st);
      var final := ProcessItems(rule, b, n, items, k, st).st;
      assert o.Done? && final == ProcessItems(rule, b, n, items, k + 1, o.st).st;
      ItemComplete(rule, b, n, items[k], st);
      ItemsComplete(rule, b, n, items, k + 1, o.st);
      PrefixKept(o.st.images, final.images);
      ItemDoneKept(rule, b, items[k], o.st.images, final.images);
      forall j | k <= j < |items| ensures ItemDone(rule, b, items[j], final.images) {
        if j > k {
          assert ItemDone(rule, b, items[j], ProcessItems(rule, b, n, items, k + 1, o.st).st.images);
        }
      }
    }
  }

  lemma {:induction false} ItemsNoop(rule: Rule, b: Browser, n: int, items: seq<Item>, k: nat, st: State)
    requires k <= |items|
    requires forall j :: k <= j < |items| ==> ItemDone(rule, b, items[j], st.images)
    ensures ProcessItems(rule, b, n, items, k, st) == Done(st)
    decreases |items| - k
  {
    if k < |items| {
      ItemNoop(rule, b, n, items[k], st);
      ItemsNoop(rule, b, n, items, k + 1, st);
    }
  }

  lemma PageDoneKept(rule: Rule, b: Browser, items: seq<Item>, images: seq<string>, images': seq<string>)
    requires PageDone(rule, b, items, images) && Kept(images, images')
    ensures PageDone(rule, b, items, images')
  {
    forall k | 0 <= k < |items| ensures ItemDone(rule, b, items[k], images') {
      ItemDoneKept(rule, b, items[k], images, images');
    }
  }

  // Walks

  /**
   The walk lemmas below hold for any page step and any notion `done` of a
   page with nothing left to do that later saves cannot undo.
   */
  ghost predicate StepCompletes(step: (int, State) -> Outcome, done: (int, seq<string>) -> bool)
  {
    forall n: int, st: State :: step(n, st).Done? ==> done(n, step(n, st).st.images)
  }

  ghost predicate StepSkipsDone(step: (int, State) -> Outcome, done: (int, seq<string>) -> bool)
  {
    forall n: int, st: State :: done(n, st.images) ==> step(n, st) == Done(st)
  }

  ghost predicate DoneStaysDone(done: (int, seq<string>) -> bool)
  {
    forall n: int, images: seq<string>, images': seq<string> :: done(n, images) && images <= images' ==> done(n, images')
  }

  /** Pages `1 .. n` all have items and are done. */
  ghost predicate AllDone(done: (int, seq<string>) -> bool, c: Collection, n: int, images: seq<string>)
  {
    forall q :: 1 <= q <= n ==> HasItems(c, q) && done(q, images)
  }

  lemma {:induction false} WalkWithComplete(step: (int, State) -> Outcome, done: (int, seq<string>) -> bool, c: Collection, n: int, st: State)
    requires Grows(step) && StepCompletes(step, done) && DoneStaysDone(done)
    requires WalkWith(step, c, n, st).end.Finished?
    ensures AllDone(done, c, n, WalkWith(step, c, n, st).final.images)
    decreases if n > 0 then n else 0
  {
    var st' := step(n, st).st;
    var final := WalkWith(step, c, n, st).final;
    assert HasItems(c, n) && step(n, st).Done?;
    if n - 1 != 0 {
      assert final == WalkWith(step, c, n - 1, st').final;
      WalkWithComplete(step, done, c, n - 1, st');
      WalkWithGrows(step, c, n - 1, st');
      assert done(n, final.images);
    }
  }

  lemma {:induction false} WalkWithNoop(step: (int, State) -> Outcome, done: (int, seq<string>) -> bool, c: Collection, n: int, st: State)
    requires StepSkipsDone(step, done)
    requires n >= 1 && AllDone(done, c, n, st.images)
    ensures WalkWith(step, c, n, st) == Run(n, n, st, Finished)
    decreases n
  {
    assert step(n, st) == Done(st);
    if n - 1 != 0 {
      WalkWithNoop(step, done, c, n - 1, st);
    }
  }

  /**
   A walk that crashes read at least one page, and every page it read before
   the one it crashed on is done.
   */
  lemma {:induction false} WalkWithCrashPrefix(step: (int, State) -> Outcome, done: (int, seq<string>) -> bool, c: Collection, n: int, st: State)
    requires Grows(step) && StepCompletes(step, done) && DoneStaysDone(done)
    requires WalkWith(step, c, n, st).end.Crashed?
    ensures var run := WalkWith(step, c, n, st);
      run.pages > 0 && forall q :: n - run.pages + 1 < q <= n ==> done(q, run.final.images)
    decreases if n > 0 then n else 0
  {
    var run := WalkWith(step, c, n, st);
    assert HasItems(c, n);
    if step(n, st).Done? {
      var st' := step(n, st).st;
      assert n - 1 != 0;
      var rest := WalkWith(step, c, n - 1, st');
      assert run.final == rest.final && run.pages == rest.pages + 1 && rest.end.Crashed?;
      WalkWithCrashPrefix(step, done, c, n - 1, st');
      WalkWithGrows(step, c, n - 1, st');
      assert done(n, run.final.images);
    }
  }

  /** A page of the collection with nothing left to do. */
  function PageDoneIn(rule: Rule, b: Browser, c: Collection): (int, seq<string>) -> bool
  {
    (n, images) => PageDone(rule, b, PageAt(c, n), images)
  }

  lemma PagesDoneIsAllDone(rule: Rule, b: Browser, c: Collection, n: int, images: seq<string>)
    ensures PagesDone(rule, b, c, n, images) <==> AllDone(PageDoneIn(rule, b, c), c, n, images)
  {
  }

  lemma PageDoneStaysDone(rule: Rule, b: Browser, c: Collection)
    ensures DoneStaysDone(PageDoneIn(rule, b, c))
  {
    forall n: int, images: seq<string>, images': seq<string> | PageDoneIn(rule, b, c)(n, images) && images <= images'
      ensures PageDoneIn(rule, b, c)(n, images')
    {
      PrefixKept(images, images');
      PageDoneKept(rule, b, PageAt(c, n), images, images');
    }
  }

  lemma PageStepCompletes(rule: Rule, b: Browser, c: Collection)
    requires Faithful(b)
    ensures StepCompletes(PageStep(rule, b, c), PageDoneIn(rule, b, c))
  {
    forall n: int, st: State | PageStep(rule, b, c)(n, st).Done?
      ensures PageDoneIn(rule, b, c)(n, PageStep(rule, b, c)(n, st).st.images)
    {
      ItemsComplete(rule, b, n, PageAt(c, n), 0, st);
    }
  }

  lemma PageStepSkipsDone(rule: Rule, b: Browser, c: Collection)
    ensures StepSkipsDone(PageStep(rule, b, c), PageDoneIn(rule, b, c))
  {
    forall n: int, st: State | PageDoneIn(rule, b, c)(n, st.images)
      ensures PageStep(rule, b, c)(n, st) == Done(st)
    {
      ItemsNoop(rule, b, n, PageAt(c, n), 0, st);
    }
  }

  /**
   Completeness: a walk from page `n` that passes page 1 leaves nothing to do
   on any of the pages `1 .. n`.
   */
  lemma WalkComplete(rule: Rule, b: Browser, c: Collection, n: int, st: State)
    requires Faithful(b)
    requires Walk(rule, b, c, n, st).end.Finished?
    ensures PagesDone(rule, b, c, n, Walk(rule, b, c, n, st).final.images)
  {
    StepGrows(rule, b, c);
    PageStepCompletes(rule, b, c);
    PageDoneStaysDone(rule, b, c);
    WalkWithComplete(PageStep(rule, b, c), PageDoneIn(rule, b, c), c, n, st);
    PagesDoneIsAllDone(rule, b, c, n, Walk(rule, b, c, n, st).final.images);
  }

  /** A walk over pages with nothing left to do passes them all, down to page 1, and changes nothing. */
  lemma WalkNoop(rule: Rule, b: Browser, c: Collection, n: int, st: State)
    requires n >= 1 && PagesDone(rule, b, c, n, st.images)
    ensures Walk(rule, b, c, n, st) == Run(n, n, st, Finished)
  {
    PageStepSkipsDone(rule, b, c);
    PagesDoneIsAllDone(rule, b, c, n, st.images);
    WalkWithNoop(PageStep(rule, b, c), PageDoneIn(rule, b, c), c, n, st);
  }

  /** The program's walk, when it crashes, leaves every page it read before the crashing one with nothing left to do. */
  lemma WalkCrashPrefix(rule: Rule, b: Browser, c: Collection, n: int, st: State)
    requires Faithful(b)
    requires Walk(rule, b, c, n, st).end.Crashed?
    ensures var run := Walk(rule, b, c, n, st);
      run.pages > 0 && forall q :: n - run.pages + 1 < q <= n ==> PageDone(rule, b, PageAt(c, q), run.final.images)
  {
    var run := WalkWith(PageStep(rule, b, c), c, n, st);
    assert Walk(rule, b, c, n, st) == run;
    StepGrows(rule, b, c);
    PageStepCompletes(rule, b, c);
    PageDoneStaysDone(rule, b, c);
    WalkWithCrashPrefix(PageStep(rule, b, c), PageDoneIn(rule, b, c), c, n, st);
    PageDoneInRange(rule, b, c, n - run.pages + 1, n, run.final.images);
  }

  /** Reads `PageDoneIn` back as `PageDone` over a range of pages. */
  lemma PageDoneInRange(rule: Rule, b: Browser, c: Collection, lo: int, hi: int, images: seq<string>)
    requires forall q :: lo < q <= hi ==> PageDoneIn(rule, b, c)(q, images)
    ensures forall q :: lo < q <= hi ==> PageDone(rule, b, PageAt(c, q), images)
  {
    forall q | lo < q <= hi
      ensures PageDone(rule, b, PageAt(c, q), images)
    {
      assert PageDoneIn(rule, b, c)(q, images);
    }
  }

  /**
   Resuming after a crash: when a run that read at least one page throws,
   the next run resumes on a page the crashed run read, at or below the
   page it started on, and every page above that resume page is done.
   Progress is never lost and never repeated beyond the crashing page.
   */
  lemma ResumeAfterCrash(rule: Rule, b: Browser, c: Collection, total: int, st: State)
    requires Faithful(b)
    requires Harvest(rule, b, c, total, st).end.Crashed? && Harvest(rule, b, c, total, st).pages > 0
    ensures var run := Harvest(rule, b, c, total, st);
      var r := StartPage(run.final.checkpoint, total, c);
      && r.Resume? && run.first - run.pages < r.page <= run.first
      && forall q :: r.page < q <= run.first ==> PageDone(rule, b, PageAt(c, q), run.final.images)
  {
    var n := StartPage(st.checkpoint, total, c).page;
    assert StartPage(st.checkpoint, total, c).Resume?;
    var run := Walk(rule, b, c, n, st);
    assert Harvest(rule, b, c, total, st) == run;
    WalkCrashPrefix(rule, b, c, n, st);
    WalkCheckpoint(rule, b, c, n, st);
    if run.final.checkpoint != st.checkpoint {
      ResumeAtCheckpointPage(run.final.checkpoint.value, total, c);
    }
  }

  /**
   Under the corrected rule, a walk from page `n` that passes page 1 leaves a
   file named after every sub-asset of every non-ugoira item with a readable
   id on pages `1 .. n`.
   */
  lemma ExactStemWalkSavesFiles(b: Browser, c: Collection, n: int, st: State, q: int, k: nat, p: nat)
    requires Faithful(b)
    requires Walk(ExactStem, b, c, n, st).end.Finished?
    requires 1 <= q <= n && k < |PageAt(c, q)|
    requires !IsUgoira(IllustType(PageAt(c, q)[k].view)) && IllustId(PageAt(c, q)[k].url).Some?
    requires p < SubAssetCount(IllustType(PageAt(c, q)[k].view))
    ensures HasStemFile(Walk(ExactStem, b, c, n, st).final.images, IllustId(PageAt(c, q)[k].url).value, p)
  {
    WalkComplete(ExactStem, b, c, n, st);
    DoneHasStemFile(b, c, n, Walk(ExactStem, b, c, n, st).final.images, q, k, p);
  }

  lemma DoneHasStemFile(b: Browser, c: Collection, n: int, images: seq<string>, q: int, k: nat, p: nat)
    requires PagesDone(ExactStem, b, c, n, images)
    requires 1 <= q <= n && k < |PageAt(c, q)|
    requires !IsUgoira(IllustType(PageAt(c, q)[k].view)) && IllustId(PageAt(c, q)[k].url).Some?
    requires p < SubAssetCount(IllustType(PageAt(c, q)[k].view))
    ensures HasStemFile(images, IllustId(PageAt(c, q)[k].url).value, p)
  {
    var items := PageAt(c, q);
    assert PageDone(ExactStem, b, items, images);
    ItemHasStemFile(b, items[k], images, p);
  }

  lemma ItemHasStemFile(b: Browser, item: Item, images: seq<string>, p: nat)
    requires ItemDone(ExactStem, b, item, images)
    requires !IsUgoira(IllustType(item.view)) && IllustId(item.url).Some?
    requires p < SubAssetCount(IllustType(item.view))
    ensures HasStemFile(images, IllustId(item.url).value, p)
  {
    var id := IllustId(item.url).value;
    assert AllSaved(ExactStem, images, id, SubAssetCount(IllustType(item.view)));
    assert Saved(ExactStem, images, id, p);
  }

  /**
   Running the program a second time, on the same collection and the same
   browser, after a run that passed page 1, passes page 1 again and leaves
   the files, the records and the checkpoint exactly as they were.
   */
  lemma HarvestIdempotent(rule: Rule, b: Browser, c: Collection, total: int, st: State)
    requires Faithful(b)
    requires Harvest(rule, b, c, total, st).end.Finished?
    ensures var st' := Harvest(rule, b, c, total, st).final;
      Harvest(rule, b, c, total, st').end.Finished? && Harvest(rule, b, c, total, st').final == st'
  {
    var n := StartPage(st.checkpoint, total, c).page;
    var run := Walk(rule, b, c, n, st);
    var st' := run.final;
    WalkComplete(rule, b, c, n, st);
    WalkCheckpoint(rule, b, c, n, st);
    if st'.checkpoint == st.checkpoint {
      WalkNoop(rule, b, c, n, st');
    } else {
      var ck := st'.checkpoint.value;
      assert 1 <= ck.page <= n;
      ResumeAtCheckpointPage(ck, total, c);
      WalkNoop(rule, b, c, ck.page, st');
    }
  }

  // The dedup finding, on one item

  /**
   As written, a single-image item whose id ends a longer id already on disk
   (`12345678` inside `112345678_p0.png`) is passed without a save, though no
   file of it exists.
   */
  lemma SuffixIdSkipsItem(b: Browser, n: int, prefix: string, id: string, d: char, alt: string, st: State)
    requires NoDigits(prefix) && |id| > 0 && AllDigits(id) && IsDigit(d)
    requires !HasSuffix(alt, UgoiraMarker)
    requires st.images == [[d] + StemOf(id, 0) + ".png"]
    ensures ProcessItem(AsWritten, b, n, Item(prefix + id, ItemView(alt, false, "")), st) == Done(st)
    ensures !HasStemFile(st.images, id, 0)
  {
    IllustIdOfUrl(prefix, id, []);
    assert prefix + id + [] == prefix + id;
    SuffixIdCollision(id, d);
  }

  /** A single-image item with a readable id is exactly one pass of the sub-asset loop, for sub-index 0. */
  lemma SingleImageItem(rule: Rule, b: Browser, n: int, url: string, id: string, alt: string, st: State)
    requires IllustId(url) == Some(id) && !HasSuffix(alt, UgoiraMarker)
    ensures ProcessItem(rule, b, n, Item(url, ItemView(alt, false, "")), st) == SubAsset(rule, b, n, url, id, 0, st)
  {
    assert SubAssetCount(IllustType(ItemView(alt, false, ""))) == 1;
  }

  /**
   Under the corrected rule the same item is saved: its file is written and
   the checkpoint moves to it, whenever the browser delivers the image.
   */
  lemma ExactStemSavesItem(b: Browser, n: int, prefix: string, id: string, d: char, alt: string, st: State)
    requires NoDigits(prefix) && |id| > 0 && AllDigits(id) && IsDigit(d)
    requires !HasSuffix(alt, UgoiraMarker)
    requires st.images == [[d] + StemOf(id, 0) + ".png"]
    requires Delivers(b, prefix + id, 0) && ShotMatches(b, prefix + id, id, 0)
    ensures var o := ProcessItem(ExactStem, b, n, Item(prefix + id, ItemView(alt, false, "")), st);
      o.Done? && HasStemFile(o.st.images, id, 0) && o.st.checkpoint == Some(Checkpoint(n, prefix + id))
  {
    var url := prefix + id;
    IllustIdOfUrl(prefix, id, []);
    assert prefix + id + [] == url;
    SuffixIdCollision(id, d);
    SingleImageItem(ExactStem, b, n, url, id, alt, st);
    SubAssetSaves(ExactStem, b, n, url, id, 0, st);
  }
}
